=== FILE: README.md ===
# License coverage and JATS accessors, modelled in Dafny

This project models two pieces of the `span` metadata toolkit.

The first is the **license-coverage check** of `licensing/entry.go`. An
`Entry` is one row of a KBART license or holdings file. Its columns follow the
KBART data-field labels (`date_first_issue_online`, `num_first_vol_online`, …).
The entry answers one question: is a given (date, volume, issue) inside my
coverage window? The answer is built from these pieces:

- a first-match date parser over an ordered table of 22 layouts, each carrying a
  granularity (year, month or day);
- boundary dates that are parsed lazily and memoised in the entry;
- sentinel boundaries for missing or unreadable columns: 0001-01-01 plus 1 ns at
  the start and 2364-01-01 plus 1 ns at the end;
- truncation of the boundaries to the *query's* granularity;
- the moving-wall (embargo) check;
- volume and issue checks that apply only in the boundary years;
- integer extraction from free text (`findInt`);
- serial-number (ISSN) normalisation and the sorted, duplicate-free identifier
  list of an entry.

The second is the set of plain accessors of a JATS `Article` in
`jats/article.go`: title composition, page count, publication year, DOI lookup,
author filtering and ISSN collection.

## Layout

| file | module | contents |
|---|---|---|
| wrappers.dfy | `Wrappers` | `Option`, `Result`, `Outcome` (error-or-nil) |
| errors.dfy | `CoverageErrors` | the error values of the licensing package |
| dates.dfy | `Dates` | instants `(year, month, day, nanos)`, their order, truncation to a granularity |
| strconv.dfy | `Strconv` | Go's `Atoi`, `%d` formatting, `ParseInt(m, 10, 32)`, and the `[0-9]+` match |
| layouts.dfy | `Layouts` | the layout table, `getGranularity`, `parseWithGranularity`, boundary resolution |
| serials.dfy | `Serials` | `TrimSpace`, `ToUpper`, `NormalizeSerialNumber` |
| sorting.dfy | `Sorting` | string order and the sorted listing of a string set |
| entry.dfy | `Licensing` | `Entry`, `begin`/`end` with their cache, `containsDateTime`, `containsDate`, `findInt`, `Covers`, `ISSNList` |
| coverage.dfy | `Coverage` | memoisation, window, default and ordering properties of the coverage check |
| examples_coverage.dfy | `CoverageExamples` | concrete coverage questions and `findInt` examples |
| zero_query.dfy | `ZeroQuery` | the cache-dependence finding and the corrected `Covers` |
| identifiers.dfy | `Identifiers` | set semantics of the identifier list |
| article.dfy | `Jats` | the article record and its accessors |

### How the Go program is represented

- **Dates.** An instant is `(year, month, day, nanos)`, where `nanos` counts the
  nanoseconds since midnight UTC. Instants are compared lexicographically. That
  is chronological order for the in-range values Go's parser produces. Go's zero
  time is `(1, 1, 1, 0)`.
- **Go's `time.Parse(layout, value)` is a parameter** (`Layouts.Parser`). It maps
  a layout and a string to an instant, or to nothing when the string does not
  fit. Every operation takes it as an argument. The worked examples state, as
  preconditions, the values Go gives for the layouts they use. An example is
  that layout `2006` reads `"1995"` as 1995-01-01.
- **`Embargo(e.Embargo).Compatible(t)` is a parameter** (`Licensing.EmbargoCheck`).
  When it returns false, Covers reports `EmbargoViolation`.
- **`span.ISSNPattern` is a parameter** (`Licensing.SerialPattern`). It has two
  parts: whether a string matches, and all matches in a string, left to right.
- **The memo cache.** Go's `Entry` fills a private `parsed` field on first use
  and writes nothing else. Here the cache is an ordinary part of the `Entry`
  value. The zero time marks an empty slot, as in Go. Every operation that can
  fill the cache returns the entry it leaves behind next to its answer
  (`Licensing.Step`). `Licensing.CacheConsistent` says that each slot is either
  empty or holds what its raw column denotes. A freshly loaded entry satisfies
  it, and every operation keeps it.
- **Integers.** Go's `int` is taken as 64 bits. `Atoi` accepts an optional sign
  followed by ASCII digits, with the value inside the 64-bit range. `findInt`
  falls back to `ParseInt(m, 10, 32)`. On a run of digits too large for 32 bits,
  that call returns the largest 32-bit value, which `findInt` keeps.
  `PageCount`'s `last - first` wraps at 64 bits (`Jats.Wrap64`).

### Behaviour of the code worth knowing

- `Covers("")` returns `ErrInvalidDate` (licensing/entry.go:149-153), because
  `parseWithGranularity` rejects the empty string (licensing/entry.go:285-287).
  Only `containsDate` treats `""` as inside every window
  (licensing/entry.go:257-259). See `Coverage.EmptyDate`.
- Both boundaries are truncated to the granularity of the *query*, not to that
  of the boundary's own layout (licensing/entry.go:244, 247 call
  `beginGranularity(g)` and `endGranularity(g)` with the query's `g`).
- Only an *empty* volume or issue switches its check off
  (licensing/entry.go:162, 165, 171, 174). A non-empty string without digits
  reads as 0 through `findInt` (licensing/entry.go:319-321), so it still takes
  part in the comparison (`Coverage.NonNumericVolumeIsZero`).
- Missing boundaries default to 0001-01-01 plus 1 ns and 2364-01-01 plus 1 ns
  (licensing/entry.go:185, 213). They leave every query of years 1 to 2363
  inside the window (`Coverage.DefaultBeginOpen`, `Coverage.DefaultEndOpen`).
  A query in year 0 is before the default begin date. A query after 2364 is
  after the default end date.

## Model

| member | source | states |
|---|---|---|
| `Dates.Truncate` | licensing/entry.go:197-235 | YEAR gives January 1 of the year at midnight and MONTH the first of the month at midnight; DAY leaves the instant, nanoseconds included, unchanged; the result is never later than the input |
| `Dates.TruncateMonotone` | licensing/entry.go:244-247 | truncating two instants to the same granularity never reverses their order |
| `Dates.YearComparison` | licensing/entry.go:200-201 | a year-aligned query is before (after) a boundary truncated to YEAR exactly when its year is smaller (larger) |
| `Dates.MonthComparison` | licensing/entry.go:202-203 | a month-aligned query is compared with a boundary truncated to MONTH by (year, month) only |
| `Layouts.LayoutsDistinct` | licensing/entry.go:50-73 | no two entries of the layout table share a layout string |
| `Layouts.LookupGranularity` | licensing/entry.go:300-307 | the granularity of the first table entry, from a given position on, with the layout; DAY when the layout is absent |
| `Layouts.GetGranularityOwn` | licensing/entry.go:293 | getGranularity returns each table layout's own granularity |
| `Layouts.GetGranularity` | licensing/entry.go:300-307 | the granularity the table lists for the layout; DAY for a layout not in the table |
| `Layouts.FirstParsing` | licensing/entry.go:288-295 | the index of the first layout that accepts the string, with every earlier one rejecting it; none exactly when all reject it |
| `Layouts.ParseWithGranularity` | licensing/entry.go:284-297 | "" is an invalid date; otherwise success exactly when some layout accepts the string, with the instant and the granularity of the first one that does; otherwise an invalid date |
| `Layouts.ParseFirstMatch` | licensing/entry.go:288-294 | conversely, the first accepting layout determines the instant and the granularity |
| `Layouts.ResolveAgreesWithParse` | licensing/entry.go:186-191 | begin/end resolve a non-empty column to the instant parseWithGranularity gives, and to the sentinel when that parse fails |
| `Layouts.ResolveFirstMatch` | licensing/entry.go:186-191 | the boundary resolves to the instant of the first layout that reads it |
| `Layouts.ResolveOr` | licensing/entry.go:185-191 | the fallback when no layout reads the column; otherwise the instant of the first layout that does |
| `Layouts.ResolveEmpty` | licensing/entry.go:185-191 | an empty boundary column takes the sentinel when no layout accepts "" |
| `Strconv.Atoi` | licensing/entry.go:315-316 | accepted exactly for an optional sign followed by digits whose value fits 64 bits, giving that value |
| `Strconv.AtoiFormatInt` | jats/article.go:186-187 | Atoi reads back every 64-bit integer printed with `%d` |
| `Strconv.FormatInt` | jats/article.go:187 | `%d`'s canonical text: a leading '-' exactly for negative numbers, then digits with no leading zero (a lone "0" for zero); read back by Atoi (`Strconv.AtoiFormatInt`) |
| `Strconv.FirstDigitRun` | licensing/entry.go:319-322 | the leftmost maximal run of ASCII digits; empty exactly when the string holds no digit |
| `Strconv.ParseInt32Digits` | licensing/entry.go:323-324 | a run of digits read as a 32-bit value, the largest 32-bit int when it does not fit |
| `Serials.TrimSpace` | licensing/entry.go:269 | the infix left after removing Unicode white space at both ends |
| `Serials.Latin1Space` | licensing/entry.go:269 | the white-space table agrees with unicode.IsSpace's Latin-1 list: tab, line feed, vertical tab, form feed, carriage return, space, U+0085 and U+00A0 |
| `Serials.ToUpper` | licensing/entry.go:270 | same length, each ASCII lower-case letter upper-cased, nothing else changed |
| `Serials.NormalizeSerialNumber` | licensing/entry.go:268-275 | trimmed and upper-case; a hyphen after the fourth character exactly when the trimmed string has 8 characters (digits or not), otherwise the trimmed upper-cased string |
| `Serials.NormalizeIdempotent` | licensing/entry.go:268-275 | normalising twice equals normalising once |
| `Serials.NormalizeEightCharacters` | licensing/entry.go:271-273 | eight bare characters become `XXXX-XXXX`, upper-cased |
| `Sorting.Insert` | licensing/entry.go:137-141 | adding an identifier to the set keeps the listing strictly sorted and adds exactly that identifier |
| `Sorting.SortedValues` | licensing/entry.go:143 | the distinct members in strictly ascending order |
| `Sorting.SortedUnique` | licensing/entry.go:143 | the sorted listing is determined by the member set alone |
| `Licensing.Begin` | licensing/entry.go:183-194 | an empty cache slot is filled from the first layout reading date_first_issue_online, else with 0001-01-01 + 1 ns; a filled slot is returned and the entry left untouched; only the cache changes |
| `Licensing.End` | licensing/entry.go:211-222 | as Begin for date_last_issue_online, with 2364-01-01 + 1 ns |
| `Licensing.BeginGranularity` | licensing/entry.go:197-207 | the begin date the raw column denotes, truncated to the query's granularity; only the cache changes, and a filled begin slot leaves the entry untouched |
| `Licensing.EndGranularity` | licensing/entry.go:225-235 | the end date the raw column denotes, truncated to the query's granularity; only the cache changes, and a filled end slot leaves the entry untouched |
| `Licensing.ContainsDateTime` | licensing/entry.go:240-251 | the zero time is inside and leaves the entry untouched; only the three outcomes nil, before first issue date and after last issue date occur; past the begin check both boundaries are cached |
| `Licensing.ContainsDate` | licensing/entry.go:256-265 | "" is inside every window; an unparsable date is invalid; otherwise the window check of the parsed instant |
| `Licensing.FindInt` | licensing/entry.go:310-325 | "" gives 0; a string Atoi accepts gives its value; otherwise the first run of digits read as a saturating 32-bit number; 0 without digits |
| `Licensing.VolumeIssueCheck` | licensing/entry.go:161-177 | each error is reported exactly when its check fires and no earlier check does, in the order first volume, first issue, last volume, last issue; nil exactly when no check fires. A first-bound check fires only in the cached begin year and a last-bound check only in the cached end year, both sides non-empty and the findInt values out of order |
| `Licensing.LastBoundCheck` | licensing/entry.go:170-177 | after-last-volume exactly when that check fires; after-last-issue exactly when it fires and the volume check does not; nil otherwise |
| `Licensing.Covers` | licensing/entry.go:149-179 | an unparsable date (including "") is invalid and leaves the entry untouched; only the cache changes; an embargo failure means the moving-wall check refused the parsed instant |
| `Licensing.ISSNList` | licensing/entry.go:132-144 | strictly sorted; holds exactly the normalised print and online identifiers that match the ISSN pattern and every match found in all_issns |
| `Licensing.FindSerialNumbers` | licensing/entry.go:278-280 | with a pattern whose reported matches are matches, every serial number found is ISSN-shaped |
| `Coverage.FreshEntryConsistent` | licensing/entry.go:124-128 | an entry with nothing cached satisfies the cache invariant |
| `Coverage.BeginMemoized` | licensing/entry.go:183-194 | begin() returns what the raw column denotes; a second call returns the same value and leaves the entry unchanged; the slot is non-zero unless the column denotes the zero time |
| `Coverage.EndMemoized` | licensing/entry.go:211-222 | the same for end() |
| `Coverage.ContainsDateTimeWindow` | licensing/entry.go:240-251 | whatever the cache holds: zero time inside; before the truncated begin date reported first; then after the truncated end date |
| `Coverage.DefaultBeginOpen` | licensing/entry.go:183-194 | with a begin column no layout reads, no query of year 1 or later is before the window, and every query of year 0 or earlier is |
| `Coverage.DefaultEndOpen` | licensing/entry.go:211-222 | with an end column no layout reads, no query before 2364 is after the window, and every query after 2364 that passes the begin check is |
| `Coverage.EmptyBeginOpen` | licensing/entry.go:184-185 | an empty first-issue date never yields before-first-issue-date for years 1 and later |
| `Coverage.EmptyDate` | licensing/entry.go:149-153 | Covers("") is an invalid date while containsDate("") is nil |
| `Coverage.ReferenceIgnoresCache` | licensing/entry.go:124-128 | the cache-free reference answer is the same for two entries with the same columns |
| `Coverage.CoversMatchesReference` | licensing/entry.go:149-179 | for every date not parsing to the zero time, Covers gives the cache-free reference answer: invalid date, window, moving wall, then the four volume/issue checks in order, first failure returned |
| `Coverage.CoversAfterWindow` | licensing/entry.go:154-177 | past the window and the moving wall, Covers answers with the volume/issue checks |
| `Coverage.UnboundedEntry` | licensing/entry.go:149-179 | an entry with no boundary columns rejects no date of years 1-2363 on age, volume or issue; only the moving wall can refuse |
| `Coverage.NoDigitsReadAsZero` | licensing/entry.go:310-321 | findInt reads a non-empty string without any digit as 0 |
| `Coverage.NonNumericVolumeIsZero` | licensing/entry.go:162-164 | a non-empty volume without digits compares as 0 and falls below any positive first volume in the boundary year |
| `Coverage.FindIntFormatInt` | licensing/entry.go:310-316 | findInt reads back every 64-bit integer written in decimal |
| `CoverageExamples.YearBeforeWindow` | licensing/entry.go:244-246 | "1995" against an entry covering 1996-2005 is before the first issue date |
| `CoverageExamples.IssueBeforeFirstIssue` | licensing/entry.go:161-167 | 2000-03-01, volume 10, issue 2 against a 2000 start with volume 10, issue 3 is before the first issue |
| `CoverageExamples.FindIntVolumePrefix` | licensing/entry.go:318-324 | "Vol. 12" reads as 12 |
| `CoverageExamples.FindIntRange` | licensing/entry.go:318-324 | "12-13" reads as 12 |
| `ZeroQuery.ZeroQueryDependsOnCache` | licensing/entry.go:161-171 | the same zero-time query gets before-first-volume on a freshly loaded entry and nil once an earlier query has filled the cache |
| `ZeroQuery.ZeroQueryOn` | licensing/entry.go:149-177 | every date that parses to the zero time leaves the entry untouched: refused only by the moving wall, otherwise answered by the volume and issue checks with year 1 against whatever the cache holds |
| `ZeroQuery.ZeroQueryVolumeThree` | licensing/entry.go:161-163 | "0001" with volume 3 against a first volume of 5 is before the first volume exactly when the cached begin year reads as 1 (an empty slot included) |
| `ZeroQuery.CoversResolved` | licensing/entry.go:149-179 | Covers with begin()/end() called before the boundary years are read; same error handling and cache discipline |
| `ZeroQuery.CoversResolvedMatchesReference` | licensing/entry.go:149-179 | the corrected check gives the cache-free reference answer for every date |
| `ZeroQuery.CoversResolvedIgnoresCache` | licensing/entry.go:124-128 | two entries with the same columns get the same corrected answer whatever they have cached |
| `ZeroQuery.CoversResolvedAgrees` | licensing/entry.go:149-179 | the corrected and the as-written check agree on every date not parsing to the zero time |
| `Identifiers.ISSNListSwap` | licensing/entry.go:134-139 | swapping print and online identifier leaves the list unchanged |
| `Identifiers.ISSNListByNormalForm` | licensing/entry.go:134-142 | the list depends on the identifier columns only through their normal forms |
| `Identifiers.ISSNListNormalized` | licensing/entry.go:135 | normalising the identifier columns beforehand leaves the list unchanged |
| `Identifiers.ISSNListDistinct` | licensing/entry.go:133-143 | no identifier appears twice |
| `Identifiers.ISSNListMatches` | licensing/entry.go:132-143 | with such a pattern, every identifier in the list is ISSN-shaped |
| `Jats.Authors` | jats/article.go:130-140 | every contrib of type "author" appears as (surname, given names) and nothing else does |
| `Jats.AuthorsOf` | jats/article.go:133-138 | the loop: at most one author per contrib, every author contrib present, nothing else |
| `Jats.AuthorsOfConcat` | jats/article.go:133-138 | authors keep document order: the authors of a concatenation are the concatenated authors |
| `Jats.AuthorsCount` | jats/article.go:133-138 | exactly one author per author contrib |
| `Jats.CombinedTitle` | jats/article.go:143-155 | "" exactly when title and subtitle are empty; the title is a prefix and the subtitle a suffix; both present gives them joined by " : "; otherwise the one present |
| `Jats.CombinedTitleSplits` | jats/article.go:145-149 | knowing the title, the subtitle is read back from the combined title |
| `Jats.Wrap64` | jats/article.go:186 | 64-bit two's-complement wrap-around: in the int64 range, congruent to the exact value modulo 2^64, and the identity inside the range |
| `Jats.PageCount` | jats/article.go:177-190 | non-empty exactly when both page fields are integers and the 64-bit difference last - first is positive; then it is that difference as `%d` prints it: digits only, no leading zero |
| `Jats.PageCountOffByOne` | jats/article.go:186-189 | pages 1 to 10 give "9", and a one-page article gives "" |
| `Jats.PageCountInclusive` | jats/article.go:177-190 | non-empty exactly when both page fields are integers and last >= first; then it is last - first + 1 in digits with no leading zero |
| `Jats.PageCountInclusiveAddsOne` | jats/article.go:186-187 | without wrap-around the corrected count is the as-written count plus one |
| `Jats.DefaultString` | jats/article.go:193-198 | `s` when non-empty, otherwise the default; empty only when both are |
| `Jats.DefaultStringIdempotent` | jats/article.go:193-198 | applying the same default twice is applying it once |
| `Jats.Year` | jats/article.go:213-219 | the year text's integer value when Atoi accepts it, otherwise 0 |
| `Jats.YearFormatInt` | jats/article.go:213-219 | a year written in decimal is read back |
| `Jats.DOI` | jats/article.go:158-165 | an error exactly when no article-id has type "doi"; otherwise the value of the first that has |
| `Jats.FirstDOI` | jats/article.go:159-164 | the loop: an error exactly when no id has type "doi", otherwise the value of the first that has |
| `Jats.ISSN` | jats/article.go:168-174 | one value per issn element, in document order, whatever its pub-type |

## Findings

| source | as written | input that shows it | evidently intended | confidence | as-written member | corrected member |
|---|---|---|---|---|---|---|
| licensing/entry.go:161-171 | the boundary-year volume/issue checks read the cached dates directly. For a query that parses to the zero time, containsDateTime returns before filling the cache, so an unfilled slot reads as year 1 | entry with date_first_issue_online "1990", num_first_vol_online "5", date_last_issue_online "2000"; `Covers("0001", "3", "")` gives ErrBeforeFirstVolume on a freshly loaded entry, but nil after `Covers("1995", "", "")` | the answer depends on the columns only; the cache exists to save parsing time (licensing/entry.go:124) | low: "0001" is an unusual date; not executed | `ZeroQuery.ZeroQueryDependsOnCache` | `ZeroQuery.CoversResolved` |
| jats/article.go:186-187 | the page count is `last - first` | first page "1", last page "10" gives "9"; first and last page "5" give "" | the number of pages, `last - first + 1`, as the doc comment says | medium; not executed | `Jats.PageCountOffByOne` | `Jats.PageCountInclusive` |

`ZeroQuery.CoversResolved` agrees with `Licensing.Covers` on every date that does
not parse to the zero time (`ZeroQuery.CoversResolvedAgrees`). The coverage
properties proved for `Covers` on those dates therefore hold for the corrected
check too.

## Left out

- Go's `time.Parse` layout engine: it is a parameter of the model, not
  reimplemented. What the examples need of it is stated as preconditions.
- `Embargo(e.Embargo).Compatible(t)` (licensing/entry.go:157): its type is
  defined outside the modelled files. It reads the clock, so it is a parameter.
- `span.ISSNPattern` (licensing/entry.go:136, 279): an external regular
  expression, so it is a parameter. `Licensing.FindSerialNumbers` is its
  find-all. The model assumes that every match it reports is itself
  matched by the pattern (`Licensing.ReportsMatches`). That holds for an ISSN
  pattern without `\b`/`\B` assertions, not for every regular expression.
- `container.StringSet` is outside the modelled files. Its sorted listing is
  modelled as the strictly ascending listing of the set.
- The KBART columns that no modelled operation reads (title, URL, publisher,
  OCLC and interlibrary columns, …) are omitted from `Licensing.Entry`.
- Go lets callers change an entry's exported columns after the cache is filled,
  and the cache then goes stale. The model never changes columns (`SameColumns`).
- `Serials.NormalizeSerialNumber`: upper-casing covers ASCII letters only, and
  length is counted in characters. Go's `strings.ToUpper` maps all of Unicode,
  and `len` counts UTF-8 bytes. The two agree on ASCII input.
- `Serials.ToUpper`: models `strings.ToUpper` for the ASCII letters only. Go
  also maps non-ASCII letters (é to É, ß stays ß, …). Unicode case tables are
  not modelled, so the model and Go agree on ASCII input only.
- `Serials.NormalizeIdempotent`: holds for the character-level model. Go works
  on UTF-8 bytes, so it holds for Go only on ASCII input. On "AAAÉABC" (8
  bytes) Go's `s[:4]` splits the two bytes of É. A second call then passes the
  invalid bytes through `strings.ToUpper`, which turns each into U+FFFD.
- `Sorting.SortedValues`: strings are compared character by character. Go
  compares UTF-8 bytes, which orders code points the same way.
- `Dates.Truncate`: instants are compared lexicographically. Nothing in the
  model rules out a day beyond the month's length; Go's parser never produces
  one.
- `jats/article.go` `Date()` aborts the process on a bad date (`log.Fatal`),
  so it is left out. `Allfields` depends on `finc.Author.String`, which is not
  part of this model. `Institutions` is a stub. The XML element mapping of
  `Article` is left out, and the record keeps only the elements the modelled
  accessors read.
- `Jats.Authors`: `finc.Author` has more fields than the two that `Authors`
  sets, so only those two are modelled.
- The command-line programs (`cmd/span-tag`, `cmd/span-import`,
  `cmd/span-freeze`, `cmd/span-label`, `cmd/ihparse`) and
  `finc/exporter/solr4vu13v9.go` are flag handling, file, network and archive
  I/O, worker pools, and calls into packages outside the modelled files.

=== FILE: article.dfy ===
/**
 * The plain accessors of a JATS article record (jats/article.go): title
 * composition, page count, publication year, DOI lookup, author filtering
 * and ISSN collection. The record keeps only the elements they read.
 */
module Jats {
  import opened Wrappers
  import opened Strconv

  /** An `issn` element of journal-meta. */
  datatype Issn = Issn(pubType: string, value: string)

  /** An `article-id` element of article-meta. */
  datatype ArticleId = ArticleId(idType: string, value: string)

  /** A `contrib` element of the contrib-group, with its name parts. */
  datatype Contrib = Contrib(contribType: string, surname: string, givenNames: string)

  datatype Article = Article(
    issns: seq<Issn>,
    ids: seq<ArticleId>,
    title: string,
    subtitle: string,
    contribs: seq<Contrib>,
    pubYear: string,
    firstPage: string,
    lastPage: string)

  /** The two fields of the intermediate-schema author that Authors sets. */
  datatype Author = Author(lastName: string, firstName: string)

  datatype ArticleError = NoDOI

  function AuthorOf(c: Contrib): Author {
    Author(c.surname, c.givenNames)
  }

  /** The contribs of type "author", in document order, as authors. */
  function AuthorsOf(cs: seq<Contrib>): (r: seq<Author>)
    ensures |r| <= |cs|
    ensures forall c :: c in cs && c.contribType == "author" ==> AuthorOf(c) in r
    ensures forall a :: a in r ==> exists c :: c in cs && c.contribType == "author" && AuthorOf(c) == a
  {
    if cs == [] then []
    else (if cs[0].contribType == "author" then [AuthorOf(cs[0])] else []) + AuthorsOf(cs[1..])
  }

  /** Authors: exactly the author contribs, surname as last name, given names as first name. */
  function Authors(a: Article): (r: seq<Author>)
    ensures |r| <= |a.contribs|
    ensures forall c :: c in a.contribs && c.contribType == "author" ==> Author(c.surname, c.givenNames) in r
    ensures forall x :: x in r ==> exists c :: c in a.contribs && c.contribType == "author" && Author(c.surname, c.givenNames) == x
  {
    AuthorsOf(a.contribs)
  }

  /**
   * Authors keeps document order: the authors of two consecutive runs of
   * contribs are the authors of the first run followed by those of the second.
   */
  lemma {:induction false} AuthorsOfConcat(xs: seq<Contrib>, ys: seq<Contrib>)
    ensures AuthorsOf(xs + ys) == AuthorsOf(xs) + AuthorsOf(ys)
  {
    if xs != [] {
      assert (xs + ys)[1..] == xs[1..] + ys;
      AuthorsOfConcat(xs[1..], ys);
    } else {
      assert xs + ys == ys;
    }
  }

  /** The number of contribs of type "author". */
  function CountAuthors(cs: seq<Contrib>): nat {
    if cs == [] then 0 else (if cs[0].contribType == "author" then 1 else 0) + CountAuthors(cs[1..])
  }

  /** One author per author contrib, none for any other. */
  lemma {:induction false} AuthorsCount(cs: seq<Contrib>)
    ensures |AuthorsOf(cs)| == CountAuthors(cs)
  {
    if cs != [] {
      AuthorsCount(cs[1..]);
    }
  }

  /**
   * CombinedTitle: "title : subtitle" when both are present, otherwise the
   * one present, "" when neither is.
   */
  function CombinedTitle(a: Article): (r: string)
    ensures r == "" <==> a.title == "" && a.subtitle == ""
    ensures a.title != "" ==> a.title <= r
    ensures a.subtitle != "" ==> |a.subtitle| <= |r| && r[|r| - |a.subtitle|..] == a.subtitle
    ensures a.title != "" && a.subtitle != "" ==> |r| == |a.title| + 3 + |a.subtitle| && r[|a.title|..|a.title| + 3] == " : "
    ensures a.title == "" || a.subtitle == "" ==> |r| == |a.title| + |a.subtitle|
  {
    if a.title != "" then
      if a.subtitle != "" then a.title + " : " + a.subtitle else a.title
    else if a.subtitle != "" then a.subtitle
    else ""
  }

  /** Knowing the title, the subtitle can be read back from the combined title. */
  lemma CombinedTitleSplits(a: Article)
    requires a.title != ""
    ensures var r := CombinedTitle(a);
            a.subtitle == (if |r| == |a.title| then "" else r[|a.title| + 3..])
  {
  }

  /** Go's int subtraction: the difference wrapped into the 64-bit range. */
  function Wrap64(x: int): (r: int)
    ensures InInt64(r)
    ensures InInt64(x) ==> r == x
    ensures (r - x) % 0x1_0000_0000_0000_0000 == 0
  {
    (x - MinInt64) % 0x1_0000_0000_0000_0000 + MinInt64
  }

  /**
   * PageCount as written: `last - first` in decimal when both page fields are
   * integers and the (64-bit) difference is positive, "" otherwise.
   */
  function PageCount(a: Article): (r: string)
    ensures r != "" <==> Atoi(a.firstPage).Some? && Atoi(a.lastPage).Some?
                         && Wrap64(Atoi(a.lastPage).value - Atoi(a.firstPage).value) > 0
    ensures r != "" ==> Atoi(r) == Some(Wrap64(Atoi(a.lastPage).value - Atoi(a.firstPage).value))
    ensures r != "" ==> AllDigits(r) && r[0] != '0'
  {
    match Atoi(a.firstPage)
    case None => ""
    case Some(first) =>
      match Atoi(a.lastPage)
      case None => ""
      case Some(last) =>
        var d := Wrap64(last - first);
        AtoiFormatInt(d);
        if d > 0 then FormatInt(d) else ""
  }

  /**
   * On pages 1 to 10 PageCount answers 9, and on a one-page article it
   * answers "", although both span a positive number of pages.
   */
  lemma PageCountOffByOne()
    ensures PageCount(Article([], [], "", "", [], "", "1", "10")) == "9"
    ensures PageCount(Article([], [], "", "", [], "", "5", "5")) == ""
  {
    assert DigitsValue("10") == 10 by { assert "10"[..1] == "1"; }
    assert Atoi("10") == Some(10);
    assert Atoi("1") == Some(1) && Atoi("5") == Some(5);
  }

  /**
   * The number of pages from the first page to the last, both included,
   * when both page fields are integers and the last is not before the first
   * (computed without wrap-around).
   */
  function PageCountInclusive(a: Article): (r: string)
    ensures r != "" <==> Atoi(a.firstPage).Some? && Atoi(a.lastPage).Some?
                         && Atoi(a.firstPage).value <= Atoi(a.lastPage).value
    ensures r != "" ==> AllDigits(r) && DigitsValue(r) == Atoi(a.lastPage).value - Atoi(a.firstPage).value + 1
    ensures r != "" ==> r[0] != '0'
  {
    match Atoi(a.firstPage)
    case None => ""
    case Some(first) =>
      match Atoi(a.lastPage)
      case None => ""
      case Some(last) =>
        if first <= last then
          DigitsOfFormatNat(last - first + 1);
          FormatNat(last - first + 1)
        else ""
  }

  /**
   * Where no wrap-around occurs, the corrected count is the as-written count
   * plus one: the first page itself.
   */
  lemma PageCountInclusiveAddsOne(a: Article)
    requires PageCount(a) != ""
    requires InInt64(Atoi(a.lastPage).value - Atoi(a.firstPage).value)
    ensures PageCountInclusive(a) != ""
    ensures DigitsValue(PageCountInclusive(a)) == Atoi(PageCount(a)).value + 1
  {
  }

  /** defaultString: `s` unless it is empty, then the default. */
  function DefaultString(s: string, defaultValue: string): (r: string)
    ensures s != "" ==> r == s
    ensures s == "" ==> r == defaultValue
    ensures r == "" <==> s == "" && defaultValue == ""
  {
    if s == "" then defaultValue else s
  }

  /** Applying the same default twice is applying it once. */
  lemma DefaultStringIdempotent(s: string, d: string)
    ensures DefaultString(DefaultString(s, d), d) == DefaultString(s, d)
  {
  }

  /** Year: the publication year as an integer, 0 when it is not one. */
  function Year(a: Article): (y: int)
    ensures Atoi(a.pubYear).Some? ==> y == Atoi(a.pubYear).value
    ensures Atoi(a.pubYear).None? ==> y == 0
    ensures InInt64(y)
  {
    match Atoi(a.pubYear)
    case Some(v) => v
    case None => 0
  }

  /** A year written in decimal is read back. */
  lemma YearFormatInt(a: Article, n: int)
    requires InInt64(n) && a.pubYear == FormatInt(n)
    ensures Year(a) == n
  {
    AtoiFormatInt(n);
  }

  /**
   * DOI: the value of the first article-id of type "doi"; an error exactly
   * when there is none.
   */
  function DOI(a: Article): (r: Result<string, ArticleError>)
    ensures r.Failure? <==> forall i :: 0 <= i < |a.ids| ==> a.ids[i].idType != "doi"
    ensures r.Success? ==> exists i :: 0 <= i < |a.ids| && a.ids[i].idType == "doi" && a.ids[i].value == r.value
                                       && forall j :: 0 <= j < i ==> a.ids[j].idType != "doi"
  {
    FirstDOI(a.ids)
  }

  function FirstDOI(ids: seq<ArticleId>): (r: Result<string, ArticleError>)
    ensures r.Failure? <==> forall i :: 0 <= i < |ids| ==> ids[i].idType != "doi"
    ensures r.Success? ==> exists i :: 0 <= i < |ids| && ids[i].idType == "doi" && ids[i].value == r.value
                                       && forall j :: 0 <= j < i ==> ids[j].idType != "doi"
  {
    if ids == [] then Failure(NoDOI)
    else if ids[0].idType == "doi" then Success(ids[0].value)
    else
      var r := FirstDOI(ids[1..]);
      assert forall i :: 1 <= i < |ids| ==> ids[i] == ids[1..][i - 1];
      if r.Success? then
        var k :| 0 <= k < |ids[1..]| && ids[1..][k].idType == "doi" && ids[1..][k].value == r.value
                 && forall j :: 0 <= j < k ==> ids[1..][j].idType != "doi";
        assert ids[k + 1].idType == "doi" && ids[k + 1].value == r.value;
        r
      else r
  }

  /** ISSN: the value of every issn element, in document order, whatever its type. */
  function ISSN(a: Article): (r: seq<string>)
    ensures |r| == |a.issns|
    ensures forall i :: 0 <= i < |r| ==> r[i] == a.issns[i].value
  {
    seq(|a.issns|, i requires 0 <= i < |a.issns| => a.issns[i].value)
  }
}

=== FILE: coverage.dfy ===
/**
 * What the coverage check of licensing/entry.go promises: the memoised
 * boundaries are transparent, the window is compared at the query's
 * granularity, missing boundaries default to extreme dates, and Covers runs
 * its checks in a fixed order.
 */
module Coverage {
  import opened Wrappers
  import opened Dates
  import opened CoverageErrors
  import opened Layouts
  import opened Strconv
  import opened Licensing

  /** A freshly loaded entry has nothing cached yet. */
  lemma FreshEntryConsistent(parse: Parser, e: Entry)
    requires e.parsed == Unparsed
    ensures CacheConsistent(parse, e)
  {
  }

  /** Two entries with the same columns differ at most in their cache. */
  lemma SameColumnsDifferInCache(a: Entry, b: Entry)
    requires SameColumns(a, b)
    ensures b == a.(parsed := b.parsed)
  {
    assert a.(parsed := Unparsed) == b.(parsed := Unparsed);
  }

  /**
   * begin() is a memo of the raw column: it returns the date the column
   * denotes, a second call returns the same date without touching the
   * entry, and the filled slot is non-zero unless the column denotes the
   * zero time itself.
   */
  lemma BeginMemoized(parse: Parser, e: Entry)
    requires CacheConsistent(parse, e)
    ensures Begin(parse, e).value == ResolvedBegin(parse, e)
    ensures Begin(parse, Begin(parse, e).entry) == Step(Begin(parse, e).entry, Begin(parse, e).value)
    ensures !IsZero(ResolvedBegin(parse, e)) ==> !IsZero(Begin(parse, e).entry.parsed.firstIssueDate)
  {
  }

  /** The same for end(). */
  lemma EndMemoized(parse: Parser, e: Entry)
    requires CacheConsistent(parse, e)
    ensures End(parse, e).value == ResolvedEnd(parse, e)
    ensures End(parse, End(parse, e).entry) == Step(End(parse, e).entry, End(parse, e).value)
    ensures !IsZero(ResolvedEnd(parse, e)) ==> !IsZero(End(parse, e).entry.parsed.lastIssueDate)
  {
  }

  /**
   * The verdict of the date window between two boundary instants, compared
   * at granularity `g`, with no cache involved.
   */
  function WindowVerdict(first: Time, last: Time, t: Time, g: Granularity): Outcome<CoverageError> {
    if IsZero(t) then Pass
    else if Earlier(t, Truncate(first, g)) then Fail(BeforeFirstIssueDate)
    else if Later(t, Truncate(last, g)) then Fail(AfterLastIssueDate)
    else Pass
  }

  /**
   * containsDateTime answers what the raw columns say, whatever the cache
   * holds: the zero time is always inside; a time before the begin date cut
   * to the query's granularity is reported first, then a time after the end
   * date cut the same way.
   */
  lemma ContainsDateTimeWindow(parse: Parser, e: Entry, t: Time, g: Granularity)
    requires CacheConsistent(parse, e)
    ensures ContainsDateTime(parse, e, t, g).value == WindowVerdict(ResolvedBegin(parse, e), ResolvedEnd(parse, e), t, g)
  {
  }

  /**
   * A begin column that no layout reads (the empty one included) leaves no
   * query of year 1 or later before the window; a query in year 0 or
   * earlier always is.
   */
  lemma DefaultBeginOpen(parse: Parser, e: Entry, t: Time, g: Granularity)
    requires CacheConsistent(parse, e)
    requires forall i :: 0 <= i < |DatePatterns| ==> parse(DatePatterns[i].layout, e.firstIssueDate).None?
    ensures t.year >= 1 ==> ContainsDateTime(parse, e, t, g).value != Fail(BeforeFirstIssueDate)
    ensures t.year <= 0 ==> ContainsDateTime(parse, e, t, g).value == Fail(BeforeFirstIssueDate)
  {
    ContainsDateTimeWindow(parse, e, t, g);
  }

  /**
   * An end column that no layout reads leaves every query before year 2364
   * inside on the right, and puts every query after year 2364 that passes
   * the begin check after the window.
   */
  lemma DefaultEndOpen(parse: Parser, e: Entry, t: Time, g: Granularity)
    requires CacheConsistent(parse, e)
    requires forall i :: 0 <= i < |DatePatterns| ==> parse(DatePatterns[i].layout, e.lastIssueDate).None?
    ensures t.year < 2364 ==> ContainsDateTime(parse, e, t, g).value != Fail(AfterLastIssueDate)
    ensures t.year > 2364 && ContainsDateTime(parse, e, t, g).value != Fail(BeforeFirstIssueDate) ==>
              ContainsDateTime(parse, e, t, g).value == Fail(AfterLastIssueDate)
  {
    ContainsDateTimeWindow(parse, e, t, g);
  }

  /** An empty begin column takes the default, for a parser that rejects "". */
  lemma EmptyBeginOpen(parse: Parser, e: Entry, t: Time, g: Granularity)
    requires RejectsEmpty(parse) && CacheConsistent(parse, e)
    requires e.firstIssueDate == "" && t.year >= 1
    ensures ContainsDateTime(parse, e, t, g).value != Fail(BeforeFirstIssueDate)
  {
    DefaultBeginOpen(parse, e, t, g);
  }

  /**
   * Covers treats the empty date as invalid, while containsDate treats it
   * as lying inside every window.
   */
  lemma EmptyDate(parse: Parser, embargoOk: EmbargoCheck, e: Entry, volume: string, issue: string)
    ensures Covers(parse, embargoOk, e, "", volume, issue) == Step(e, Fail(InvalidDate))
    ensures ContainsDate(parse, e, "") == Step(e, Pass)
  {
  }

  /**
   * The answer Covers should give, from the raw columns alone: invalid
   * date, then the date window, then the moving wall, then the volume and
   * issue bounds of the boundary years.
   */
  function CoversReference(parse: Parser, embargoOk: EmbargoCheck, e: Entry, date: string, volume: string, issue: string)
    : Outcome<CoverageError>
  {
    match ParseWithGranularity(parse, date)
    case Failure(_) => Fail(InvalidDate)
    case Success(d) =>
      var w := WindowVerdict(ResolvedBegin(parse, e), ResolvedEnd(parse, e), d.time, d.granularity);
      if w.Fail? then w
      else if !embargoOk(e.embargo, d.time) then Fail(EmbargoViolation)
      else VolumeIssueCheck(e.(parsed := Parsed(ResolvedBegin(parse, e), ResolvedEnd(parse, e))),
                            d.time.year, volume, issue)
  }

  /** The reference answer depends on the columns of the entry only, never on its cache. */
  lemma ReferenceIgnoresCache(parse: Parser, embargoOk: EmbargoCheck, e1: Entry, e2: Entry, date: string, volume: string, issue: string)
    requires SameColumns(e1, e2)
    ensures CoversReference(parse, embargoOk, e1, date, volume, issue) == CoversReference(parse, embargoOk, e2, date, volume, issue)
  {
    SameColumnsDifferInCache(e1, e2);
    var p := Parsed(ResolvedBegin(parse, e1), ResolvedEnd(parse, e1));
    assert ResolvedBegin(parse, e2) == ResolvedBegin(parse, e1) && ResolvedEnd(parse, e2) == ResolvedEnd(parse, e1);
    assert e2.(parsed := p) == e1.(parsed := p);
    match ParseWithGranularity(parse, date)
    case Failure(_) =>
    case Success(d) =>
      var w := WindowVerdict(p.firstIssueDate, p.lastIssueDate, d.time, d.granularity);
      var answer := if w.Fail? then w
                    else if !embargoOk(e1.embargo, d.time) then Fail(EmbargoViolation)
                    else VolumeIssueCheck(e1.(parsed := p), d.time.year, volume, issue);
      assert CoversReference(parse, embargoOk, e1, date, volume, issue) == answer;
      assert CoversReference(parse, embargoOk, e2, date, volume, issue) == answer;
  }

  /**
   * For every date that does not parse to the zero time, Covers gives the
   * reference answer whatever the cache holds: the checks run in the order
   * date window, moving wall, first volume, first issue, last volume, last
   * issue, and the first failure is returned.
   */
  lemma CoversMatchesReference(parse: Parser, embargoOk: EmbargoCheck, e: Entry, date: string, volume: string, issue: string)
    requires CacheConsistent(parse, e)
    requires ParseWithGranularity(parse, date).Success? ==> !IsZero(ParseWithGranularity(parse, date).value.time)
    ensures Covers(parse, embargoOk, e, date, volume, issue).value == CoversReference(parse, embargoOk, e, date, volume, issue)
  {
    match ParseWithGranularity(parse, date)
    case Failure(_) =>
    case Success(d) =>
      var c := ContainsDateTime(parse, e, d.time, d.granularity);
      var p := Parsed(ResolvedBegin(parse, e), ResolvedEnd(parse, e));
      ContainsDateTimeWindow(parse, e, d.time, d.granularity);
      assert CoversReference(parse, embargoOk, e, date, volume, issue) ==
        if c.value.Fail? then c.value
        else if !embargoOk(e.embargo, d.time) then Fail(EmbargoViolation)
        else VolumeIssueCheck(e.(parsed := p), d.time.year, volume, issue);
      assert Covers(parse, embargoOk, e, date, volume, issue).value ==
        if c.value.Fail? then c.value
        else if !embargoOk(e.embargo, d.time) then Fail(EmbargoViolation)
        else VolumeIssueCheck(c.entry, d.time.year, volume, issue);
      if c.value == Pass {
        SameColumnsDifferInCache(e, c.entry);
        assert c.entry == e.(parsed := p);
      }
  }

  /**
   * Once the date has parsed, lies inside the window and passes the moving
   * wall, Covers answers with the volume and issue checks against the
   * entry as the window check left it.
   */
  lemma CoversAfterWindow(parse: Parser, embargoOk: EmbargoCheck, e: Entry, date: string, volume: string, issue: string, d: Dated)
    requires ParseWithGranularity(parse, date) == Success(d)
    requires ContainsDateTime(parse, e, d.time, d.granularity).value == Pass
    requires embargoOk(e.embargo, d.time)
    ensures var c := ContainsDateTime(parse, e, d.time, d.granularity).entry;
            Covers(parse, embargoOk, e, date, volume, issue) == Step(c, VolumeIssueCheck(c, d.time.year, volume, issue))
  {
  }

  /**
   * An entry with no boundary columns at all rejects no date from year 1
   * to year 2363 on age, volume or issue grounds: only the moving wall can
   * turn it down.
   */
  lemma UnboundedEntry(parse: Parser, embargoOk: EmbargoCheck, e: Entry, date: string, volume: string, issue: string)
    requires RejectsEmpty(parse) && CacheConsistent(parse, e)
    requires e.firstIssueDate == "" && e.lastIssueDate == ""
    requires e.firstVolume == "" && e.firstIssue == "" && e.lastVolume == "" && e.lastIssue == ""
    requires ParseWithGranularity(parse, date).Success?
    requires 1 <= ParseWithGranularity(parse, date).value.time.year < 2364
    ensures Covers(parse, embargoOk, e, date, volume, issue).value in {Pass, Fail(EmbargoViolation)}
  {
    var d := ParseWithGranularity(parse, date).value;
    DefaultBeginOpen(parse, e, d.time, d.granularity);
    DefaultEndOpen(parse, e, d.time, d.granularity);
  }

  /** findInt reads a non-empty string without any digit as 0. */
  lemma NoDigitsReadAsZero(s: string)
    requires s != "" && forall j :: 0 <= j < |s| ==> !IsDigit(s[j])
    ensures FindInt(s) == 0
  {
    assert !IsDecimal(s) by {
      if |Unsigned(s)| > 0 {
        assert Unsigned(s)[|Unsigned(s)| - 1] == s[|s| - 1];
      }
    }
  }

  /**
   * A non-empty volume that holds no number compares as volume 0: in the
   * boundary year it falls below any positive first volume.
   */
  lemma NonNumericVolumeIsZero(e: Entry, year: int, volume: string)
    requires volume != "" && forall j :: 0 <= j < |volume| ==> !IsDigit(volume[j])
    requires e.parsed.firstIssueDate.year == year && e.firstVolume != "" && FindInt(e.firstVolume) > 0
    ensures VolumeIssueCheck(e, year, volume, "") == Fail(BeforeFirstVolume)
  {
    NoDigitsReadAsZero(volume);
  }

  /** findInt reads back every 64-bit integer written with `%d`. */
  lemma FindIntFormatInt(n: int)
    requires InInt64(n)
    ensures FindInt(FormatInt(n)) == n
  {
    AtoiFormatInt(n);
  }
}

=== FILE: dates.dfy ===
/**
 * Calendar instants as the coverage check sees them: a date plus the
 * nanoseconds elapsed since midnight, compared lexicographically, which is
 * chronological order for valid dates. Everything is UTC.
 */
module Dates {

  /** How complete a date string was (licensing/entry.go:22-29). */
  datatype Granularity = Year | Month | Day

  const NanosPerDay: int := 86_400_000_000_000

  datatype Instant = Instant(year: int, month: int, day: int, nanos: int)
  {
    predicate Valid() {
      1 <= month <= 12 && 1 <= day <= 31 && 0 <= nanos < NanosPerDay
    }
  }

  /** An instant with in-range components; what Go's time.Parse produces. */
  type Time = t: Instant | t.Valid() witness Instant(1, 1, 1, 0)

  /** Go's zero time.Time: January 1 of year 1, 00:00:00 UTC. */
  const Zero: Time := Instant(1, 1, 1, 0)

  predicate IsZero(t: Time) {
    t == Zero
  }

  /** Strict chronological order: Go's `a.Before(b)`. */
  predicate Earlier(a: Time, b: Time) {
    || a.year < b.year
    || (a.year == b.year && a.month < b.month)
    || (a.year == b.year && a.month == b.month && a.day < b.day)
    || (a.year == b.year && a.month == b.month && a.day == b.day && a.nanos < b.nanos)
  }

  /** Go's `a.After(b)`. */
  predicate Later(a: Time, b: Time) {
    Earlier(b, a)
  }

  /**
   * Cuts an instant down to the given granularity, as beginGranularity and
   * endGranularity do (licensing/entry.go:197-235): YEAR gives January 1 of
   * the year, MONTH the first of the month, both at midnight; DAY keeps the
   * instant untouched, nanoseconds included.
   */
  function Truncate(t: Time, g: Granularity): (r: Time)
    ensures r.year == t.year
    ensures g != Year ==> r.month == t.month
    ensures g == Day ==> r == t
    ensures g == Year ==> r.month == 1 && r.day == 1 && r.nanos == 0
    ensures g == Month ==> r.day == 1 && r.nanos == 0
    ensures !Earlier(t, r)
  {
    match g
    case Year => Instant(t.year, 1, 1, 0)
    case Month => Instant(t.year, t.month, 1, 0)
    case Day => t
  }

  /** Truncation never reorders two instants. */
  lemma TruncateMonotone(a: Time, b: Time, g: Granularity)
    requires !Earlier(b, a)
    ensures !Earlier(Truncate(b, g), Truncate(a, g))
  {
  }

  /**
   * At YEAR granularity a year-aligned query lies before the truncated bound
   * exactly when its year is smaller: only years take part in the comparison.
   */
  lemma YearComparison(t: Time, b: Time)
    requires Truncate(t, Year) == t
    ensures Earlier(t, Truncate(b, Year)) <==> t.year < b.year
    ensures Later(t, Truncate(b, Year)) <==> t.year > b.year
  {
  }

  /** At MONTH granularity a month-aligned query is compared by (year, month). */
  lemma MonthComparison(t: Time, b: Time)
    requires Truncate(t, Month) == t
    ensures Earlier(t, Truncate(b, Month)) <==> t.year < b.year || (t.year == b.year && t.month < b.month)
    ensures Later(t, Truncate(b, Month)) <==> t.year > b.year || (t.year == b.year && t.month > b.month)
  {
  }
}

=== FILE: entry.dfy ===
/**
 * One row of a KBART license or holdings file and the coverage question it
 * answers (licensing/entry.go): is a given date, volume and issue inside the
 * row's coverage window?
 *
 * Go's Entry caches its parsed boundary dates in a private field, filling it
 * on first use. Here the cache is an ordinary part of the value: every
 * operation that may fill it returns the entry as it leaves it next to its
 * answer (a `Step`). The zero time marks an empty slot, as in Go.
 */
module Licensing {
  import opened Wrappers
  import opened Dates
  import opened CoverageErrors
  import opened Layouts
  import opened Strconv
  import Serials
  import Sorting

  /** The parsed boundary dates; `Zero` means not computed yet. */
  datatype Parsed = Parsed(firstIssueDate: Time, lastIssueDate: Time)

  const Unparsed: Parsed := Parsed(Zero, Zero)

  /**
   * The fields of an entry the coverage check and the identifier listing
   * read, named after the KBART columns they come from.
   */
  datatype Entry = Entry(
    printIdentifier: string,   // print_identifier
    onlineIdentifier: string,  // online_identifier
    firstIssueDate: string,    // date_first_issue_online
    firstVolume: string,       // num_first_vol_online
    firstIssue: string,        // num_first_issue_online
    lastIssueDate: string,     // date_last_issue_online
    lastVolume: string,        // num_last_vol_online
    lastIssue: string,         // num_last_issue_online
    embargo: string,           // embargo_info
    allSerialNumbers: string,  // all_issns
    parsed: Parsed)

  /** An answer together with the entry as the call leaves its cache. */
  datatype Step<+T> = Step(entry: Entry, value: T)

  /** The moving-wall check `Embargo(e.Embargo).Compatible(t)`, true when it returns nil. */
  type EmbargoCheck = (string, Time) -> bool

  /**
   * The ISSN regular expression: whether a string contains a match, and all
   * matches found in a string, left to right.
   */
  datatype SerialPattern = SerialPattern(matches: string -> bool, findAll: string -> seq<string>)

  /** The begin date assumed when date_first_issue_online is missing or unreadable. */
  const FirstSentinel: Time := Instant(1, 1, 1, 1)

  /** The end date assumed when date_last_issue_online is missing or unreadable. */
  const LastSentinel: Time := Instant(2364, 1, 1, 1)

  /** The begin date the entry's raw column denotes. */
  function ResolvedBegin(parse: Parser, e: Entry): Time {
    ResolveOr(parse, e.firstIssueDate, FirstSentinel)
  }

  /** The end date the entry's raw column denotes. */
  function ResolvedEnd(parse: Parser, e: Entry): Time {
    ResolveOr(parse, e.lastIssueDate, LastSentinel)
  }

  /**
   * Each cache slot is either empty or holds what its raw column denotes.
   * Entries are loaded with both slots empty, and every operation below keeps
   * this true.
   */
  predicate CacheConsistent(parse: Parser, e: Entry) {
    && (IsZero(e.parsed.firstIssueDate) || e.parsed.firstIssueDate == ResolvedBegin(parse, e))
    && (IsZero(e.parsed.lastIssueDate) || e.parsed.lastIssueDate == ResolvedEnd(parse, e))
  }

  /** Only the cache of an entry is ever written. */
  predicate SameColumns(a: Entry, b: Entry) {
    a.(parsed := Unparsed) == b.(parsed := Unparsed)
  }

  /**
   * begin(): the cached begin date, filled on first use from the first
   * layout that reads date_first_issue_online, else 0001-01-01 plus 1ns.
   */
  function Begin(parse: Parser, e: Entry): (r: Step<Time>)
    ensures SameColumns(e, r.entry)
    ensures r.entry.parsed.lastIssueDate == e.parsed.lastIssueDate
    ensures r.entry.parsed.firstIssueDate == r.value
    ensures !IsZero(e.parsed.firstIssueDate) ==> r.entry == e
    ensures CacheConsistent(parse, e) ==> r.value == ResolvedBegin(parse, e) && CacheConsistent(parse, r.entry)
  {
    if IsZero(e.parsed.firstIssueDate) then
      var t := ResolveOr(parse, e.firstIssueDate, FirstSentinel);
      Step(e.(parsed := e.parsed.(firstIssueDate := t)), t)
    else
      Step(e, e.parsed.firstIssueDate)
  }

  /**
   * end(): the cached end date, filled on first use from the first layout
   * that reads date_last_issue_online, else 2364-01-01 plus 1ns.
   */
  function End(parse: Parser, e: Entry): (r: Step<Time>)
    ensures SameColumns(e, r.entry)
    ensures r.entry.parsed.firstIssueDate == e.parsed.firstIssueDate
    ensures r.entry.parsed.lastIssueDate == r.value
    ensures !IsZero(e.parsed.lastIssueDate) ==> r.entry == e
    ensures CacheConsistent(parse, e) ==> r.value == ResolvedEnd(parse, e) && CacheConsistent(parse, r.entry)
  {
    if IsZero(e.parsed.lastIssueDate) then
      var t := ResolveOr(parse, e.lastIssueDate, LastSentinel);
      Step(e.(parsed := e.parsed.(lastIssueDate := t)), t)
    else
      Step(e, e.parsed.lastIssueDate)
  }

  /** beginGranularity: the begin date cut down to the query's granularity. */
  function BeginGranularity(parse: Parser, e: Entry, g: Granularity): (r: Step<Time>)
    ensures SameColumns(e, r.entry)
    ensures !IsZero(e.parsed.firstIssueDate) ==> r.entry == e
    ensures CacheConsistent(parse, e) ==>
              r.value == Truncate(ResolvedBegin(parse, e), g) && CacheConsistent(parse, r.entry)
  {
    var b := Begin(parse, e);
    Step(b.entry, Truncate(b.value, g))
  }

  /** endGranularity: the end date cut down to the query's granularity. */
  function EndGranularity(parse: Parser, e: Entry, g: Granularity): (r: Step<Time>)
    ensures SameColumns(e, r.entry)
    ensures !IsZero(e.parsed.lastIssueDate) ==> r.entry == e
    ensures CacheConsistent(parse, e) ==>
              r.value == Truncate(ResolvedEnd(parse, e), g) && CacheConsistent(parse, r.entry)
  {
    var b := End(parse, e);
    Step(b.entry, Truncate(b.value, g))
  }

  /**
   * containsDateTime: the zero time is inside every window; otherwise a time
   * before the truncated begin date is reported first, then one after the
   * truncated end date.
   */
  function ContainsDateTime(parse: Parser, e: Entry, t: Time, g: Granularity): (r: Step<Outcome<CoverageError>>)
    ensures SameColumns(e, r.entry)
    ensures CacheConsistent(parse, e) ==> CacheConsistent(parse, r.entry)
    ensures IsZero(t) ==> r == Step(e, Pass)
    ensures r.value in {Pass, Fail(BeforeFirstIssueDate), Fail(AfterLastIssueDate)}
    ensures CacheConsistent(parse, e) && !IsZero(t) && r.value != Fail(BeforeFirstIssueDate) ==>
              r.entry.parsed == Parsed(ResolvedBegin(parse, e), ResolvedEnd(parse, e))
  {
    if IsZero(t) then Step(e, Pass)
    else
      var b := BeginGranularity(parse, e, g);
      if Earlier(t, b.value) then Step(b.entry, Fail(BeforeFirstIssueDate))
      else
        var n := EndGranularity(parse, b.entry, g);
        if Later(t, n.value) then Step(n.entry, Fail(AfterLastIssueDate))
        else Step(n.entry, Pass)
  }

  /**
   * containsDate: the empty string lies inside every window; any other
   * string must parse, and its instant is then checked against the window.
   */
  function ContainsDate(parse: Parser, e: Entry, s: string): (r: Step<Outcome<CoverageError>>)
    ensures s == "" ==> r == Step(e, Pass)
    ensures s != "" && ParseWithGranularity(parse, s).Failure? ==> r == Step(e, Fail(InvalidDate))
    ensures s != "" && ParseWithGranularity(parse, s).Success? ==>
              var d := ParseWithGranularity(parse, s).value;
              r == ContainsDateTime(parse, e, d.time, d.granularity)
  {
    if s == "" then Step(e, Pass)
    else
      match ParseWithGranularity(parse, s)
      case Failure(err) => Step(e, Fail(err))
      case Success(d) => ContainsDateTime(parse, e, d.time, d.granularity)
  }

  /**
   * findInt: 0 for the empty string; the value of a string Atoi accepts
   * whole; otherwise the first run of digits, read as a 32-bit number
   * (saturating at the largest one); 0 when there is no digit at all.
   */
  function FindInt(s: string): (n: int)
    ensures s == "" ==> n == 0
    ensures Atoi(s).Some? ==> n == Atoi(s).value
    ensures Atoi(s).None? && FirstDigitRun(s) == [] ==> n == 0
    ensures Atoi(s).None? && FirstDigitRun(s) != [] ==> n == ParseInt32Digits(FirstDigitRun(s))
    ensures Atoi(s).None? ==> 0 <= n <= MaxInt32
  {
    if s == "" then 0
    else
      match Atoi(s)
      case Some(v) => v
      case None =>
        var m := FirstDigitRun(s);
        if m == "" then 0 else ParseInt32Digits(m)
  }

  /** The first-volume check of Covers fires (licensing/entry.go:161-163). */
  predicate BeforeFirstVolumeFires(e: Entry, year: int, volume: string) {
    e.parsed.firstIssueDate.year == year && e.firstVolume != "" && volume != ""
    && FindInt(volume) < FindInt(e.firstVolume)
  }

  /** The first-issue check of Covers fires (licensing/entry.go:161, 165-166). */
  predicate BeforeFirstIssueFires(e: Entry, year: int, issue: string) {
    e.parsed.firstIssueDate.year == year && e.firstIssue != "" && issue != ""
    && FindInt(issue) < FindInt(e.firstIssue)
  }

  /** The last-volume check of Covers fires (licensing/entry.go:170-172). */
  predicate AfterLastVolumeFires(e: Entry, year: int, volume: string) {
    e.parsed.lastIssueDate.year == year && e.lastVolume != "" && volume != ""
    && FindInt(volume) > FindInt(e.lastVolume)
  }

  /** The last-issue check of Covers fires (licensing/entry.go:170, 174-175). */
  predicate AfterLastIssueFires(e: Entry, year: int, issue: string) {
    e.parsed.lastIssueDate.year == year && e.lastIssue != "" && issue != ""
    && FindInt(issue) > FindInt(e.lastIssue)
  }

  /**
   * The volume and issue checks of Covers (licensing/entry.go:161-177): the
   * first-bound checks apply when the cached begin date falls in the query's
   * year, the last-bound checks when the cached end date does; a check is
   * skipped when either side is empty. The checks run in the order first
   * volume, first issue, last volume, last issue, and the first that fires
   * is reported; nil when none does.
   */
  function VolumeIssueCheck(e: Entry, year: int, volume: string, issue: string): (r: Outcome<CoverageError>)
    ensures r == Fail(BeforeFirstVolume) <==> BeforeFirstVolumeFires(e, year, volume)
    ensures r == Fail(BeforeFirstIssue) <==>
              !BeforeFirstVolumeFires(e, year, volume) && BeforeFirstIssueFires(e, year, issue)
    ensures r == Fail(AfterLastVolume) <==>
              !BeforeFirstVolumeFires(e, year, volume) && !BeforeFirstIssueFires(e, year, issue)
              && AfterLastVolumeFires(e, year, volume)
    ensures r == Fail(AfterLastIssue) <==>
              !BeforeFirstVolumeFires(e, year, volume) && !BeforeFirstIssueFires(e, year, issue)
              && !AfterLastVolumeFires(e, year, volume) && AfterLastIssueFires(e, year, issue)
    ensures r == Pass <==>
              !BeforeFirstVolumeFires(e, year, volume) && !BeforeFirstIssueFires(e, year, issue)
              && !AfterLastVolumeFires(e, year, volume) && !AfterLastIssueFires(e, year, issue)
    ensures r.Fail? ==> r.error in {BeforeFirstVolume, BeforeFirstIssue, AfterLastVolume, AfterLastIssue}
    ensures volume == "" && issue == "" ==> r == Pass
  {
    if e.parsed.firstIssueDate.year == year then
      if e.firstVolume != "" && volume != "" && FindInt(volume) < FindInt(e.firstVolume) then
        Fail(BeforeFirstVolume)
      else if e.firstIssue != "" && issue != "" && FindInt(issue) < FindInt(e.firstIssue) then
        Fail(BeforeFirstIssue)
      else LastBoundCheck(e, year, volume, issue)
    else LastBoundCheck(e, year, volume, issue)
  }

  /** The checks of the last boundary year (licensing/entry.go:170-177). */
  function LastBoundCheck(e: Entry, year: int, volume: string, issue: string): (r: Outcome<CoverageError>)
    ensures r == Fail(AfterLastVolume) <==> AfterLastVolumeFires(e, year, volume)
    ensures r == Fail(AfterLastIssue) <==> !AfterLastVolumeFires(e, year, volume) && AfterLastIssueFires(e, year, issue)
    ensures r == Pass <==> !AfterLastVolumeFires(e, year, volume) && !AfterLastIssueFires(e, year, issue)
  {
    if e.parsed.lastIssueDate.year == year then
      if e.lastVolume != "" && volume != "" && FindInt(volume) > FindInt(e.lastVolume) then
        Fail(AfterLastVolume)
      else if e.lastIssue != "" && issue != "" && FindInt(issue) > FindInt(e.lastIssue) then
        Fail(AfterLastIssue)
      else Pass
    else Pass
  }

  /**
   * Covers: parse the date (the empty string included, which is invalid),
   * check it against the date window, then the moving wall, then the volume
   * and issue bounds of the boundary years. The first failure is returned.
   */
  function Covers(parse: Parser, embargoOk: EmbargoCheck, e: Entry, date: string, volume: string, issue: string)
    : (r: Step<Outcome<CoverageError>>)
    ensures SameColumns(e, r.entry)
    ensures CacheConsistent(parse, e) ==> CacheConsistent(parse, r.entry)
    ensures ParseWithGranularity(parse, date).Failure? ==> r == Step(e, Fail(InvalidDate))
    ensures r.value == Fail(EmbargoViolation) ==> !embargoOk(e.embargo, ParseWithGranularity(parse, date).value.time)
  {
    match ParseWithGranularity(parse, date)
    case Failure(err) => Step(e, Fail(err))
    case Success(d) =>
      var c := ContainsDateTime(parse, e, d.time, d.granularity);
      if c.value.Fail? then c
      else if !embargoOk(e.embargo, d.time) then Step(c.entry, Fail(EmbargoViolation))
      else Step(c.entry, VolumeIssueCheck(c.entry, d.time.year, volume, issue))
  }

  /**
   * The assumption made of the serial-number pattern: every string
   * FindAllString reports is itself matched by MatchString. This holds for
   * an ISSN pattern without word-boundary assertions; it fails for a pattern
   * such as `\b-`, which finds "-" in "a-" but does not match "-" alone.
   */
  ghost predicate ReportsMatches(pattern: SerialPattern) {
    forall s, x :: x in pattern.findAll(s) ==> pattern.matches(x)
  }

  /** FindSerialNumbers: every ISSN-shaped substring, left to right. */
  function FindSerialNumbers(pattern: SerialPattern, s: string): (r: seq<string>)
    ensures ReportsMatches(pattern) ==> forall x :: x in r ==> pattern.matches(x)
  {
    pattern.findAll(s)
  }

  /**
   * ISSNList: the normalised print and online identifiers that match the
   * ISSN pattern, together with every match in all_issns, sorted and
   * without repetitions.
   */
  function ISSNList(pattern: SerialPattern, e: Entry): (r: seq<string>)
    ensures Sorting.StrictlySorted(r)
    ensures forall x :: x in r <==>
              || (x == Serials.NormalizeSerialNumber(e.printIdentifier) && pattern.matches(x))
              || (x == Serials.NormalizeSerialNumber(e.onlineIdentifier) && pattern.matches(x))
              || x in FindSerialNumbers(pattern, e.allSerialNumbers)
  {
    var p := Serials.NormalizeSerialNumber(e.printIdentifier);
    var o := Serials.NormalizeSerialNumber(e.onlineIdentifier);
    var primary := (if pattern.matches(p) then [p] else []) + (if pattern.matches(o) then [o] else []);
    Sorting.SortedValues(primary + FindSerialNumbers(pattern, e.allSerialNumbers))
  }
}

=== FILE: errors.dfy ===
/** The error values of the licensing package (licensing/entry.go:31-38). */
module CoverageErrors {

  datatype CoverageError =
    | BeforeFirstIssueDate
    | AfterLastIssueDate
    | BeforeFirstVolume
    | AfterLastVolume
    | BeforeFirstIssue
    | AfterLastIssue
    | InvalidDate
      /** Whatever error the moving-wall (embargo) check reports. */
    | EmbargoViolation
}

=== FILE: examples_coverage.dfy ===
/**
 * Concrete coverage questions. Go's time.Parse is a parameter of the model,
 * so each example states, as a precondition, what it needs of the parser:
 * the values Go's layout engine gives for the layouts concerned.
 */
module CoverageExamples {
  import opened Wrappers
  import opened Dates
  import opened CoverageErrors
  import opened Layouts
  import opened Strconv
  import opened Licensing
  import opened Coverage

  function Row(first: string, firstVolume: string, firstIssue: string, last: string): Entry {
    Entry("", "", first, firstVolume, firstIssue, last, "", "", "", "", Unparsed)
  }

  /** 1995 against an entry covering 1996 to 2005 is before the first issue date. */
  lemma YearBeforeWindow(parse: Parser, embargoOk: EmbargoCheck)
    requires parse("2006", "1995") == Some(Instant(1995, 1, 1, 0))
    requires parse("2006", "1996") == Some(Instant(1996, 1, 1, 0))
    ensures Covers(parse, embargoOk, Row("1996", "", "", "2005"), "1995", "", "").value == Fail(BeforeFirstIssueDate)
  {
  }

  /**
   * 2000-03-01, volume 10, issue 2 against an entry starting in 2000 with
   * volume 10, issue 3: same boundary year, issue below the first issue.
   */
  lemma IssueBeforeFirstIssue(parse: Parser, embargoOk: EmbargoCheck)
    requires parse("2006", "2000-03-01").None?
    requires parse("2006-01-02", "2000-03-01") == Some(Instant(2000, 3, 1, 0))
    requires parse("2006", "2000") == Some(Instant(2000, 1, 1, 0))
    requires RejectsEmpty(parse)
    requires embargoOk("", Instant(2000, 3, 1, 0))
    ensures Covers(parse, embargoOk, Row("2000", "10", "3", ""), "2000-03-01", "10", "2").value == Fail(BeforeFirstIssue)
  {
    var e := Row("2000", "10", "3", "");
    var t := Instant(2000, 3, 1, 0);
    ParseFirstMatch(parse, "2000-03-01", 1, t);
    ResolveFirstMatch(parse, "2000", 0, Instant(2000, 1, 1, 0), FirstSentinel);
    ResolveEmpty(parse, LastSentinel);
    ContainsDateTimeWindow(parse, e, t, Day);
    var c := ContainsDateTime(parse, e, t, Day);
    assert c.value == Pass;
    assert c.entry.parsed == Parsed(Instant(2000, 1, 1, 0), LastSentinel);
    SmallNumbers();
    assert VolumeIssueCheck(c.entry, 2000, "10", "2") == Fail(BeforeFirstIssue);
    CoversAfterWindow(parse, embargoOk, e, "2000-03-01", "10", "2", Dated(t, Day));
  }

  lemma SmallNumbers()
    ensures FindInt("10") == 10 && FindInt("3") == 3 && FindInt("2") == 2
  {
    FindIntFormatInt(10);
    FindIntFormatInt(3);
    FindIntFormatInt(2);
    assert FormatInt(10) == "10" && FormatInt(3) == "3" && FormatInt(2) == "2";
  }

  /** "12" read as digits is twelve. */
  lemma Twelve()
    ensures AllDigits("12") && DigitsValue("12") == 12 && ParseInt32Digits("12") == 12
  {
    assert "12"[..1] == "1";
  }

  /** "Vol. 12" holds no decimal literal as a whole; its first run of digits is 12. */
  lemma FindIntVolumePrefix()
    ensures FindInt("Vol. 12") == 12
  {
    var s := "Vol. 12";
    assert Atoi(s).None? by {
      assert Unsigned(s) == s && !IsDigit(s[0]);
    }
    assert FirstDigitIndex(s) == 5 by {
      assert s[1..][1..][1..][1..][1..] == "12";
    }
    assert FirstDigitRun(s) == "12" by {
      assert s[5..] == "12";
      assert "12"[1..] == "2" && "2"[1..] == "";
    }
    Twelve();
  }

  /** "12-13" is read up to the hyphen. */
  lemma FindIntRange()
    ensures FindInt("12-13") == 12
  {
    var s := "12-13";
    assert Atoi(s).None? by {
      assert Unsigned(s) == s && !IsDigit(s[2]);
    }
    assert FirstDigitRun(s) == "12" by {
      assert FirstDigitIndex(s) == 0;
      assert s[0..] == s;
      assert s[1..] == "2-13" && s[1..][1..] == "-13";
    }
    Twelve();
  }
}

=== FILE: identifiers.dfy ===
/**
 * The identifier listing of an entry (licensing/entry.go:131-144) has set
 * semantics: which column an identifier came from, and whether it was
 * normalised already, make no difference to the list.
 */
module Identifiers {
  import opened Licensing
  import opened Serials
  import opened Sorting

  /** Swapping the print and the online identifier leaves the list unchanged. */
  lemma ISSNListSwap(pattern: SerialPattern, e: Entry)
    ensures ISSNList(pattern, e) == ISSNList(pattern, e.(printIdentifier := e.onlineIdentifier, onlineIdentifier := e.printIdentifier))
  {
    var e' := e.(printIdentifier := e.onlineIdentifier, onlineIdentifier := e.printIdentifier);
    SortedUnique(ISSNList(pattern, e), ISSNList(pattern, e'));
  }

  /** The list depends on the identifier columns only through their normal forms. */
  lemma ISSNListByNormalForm(pattern: SerialPattern, e1: Entry, e2: Entry)
    requires NormalizeSerialNumber(e1.printIdentifier) == NormalizeSerialNumber(e2.printIdentifier)
    requires NormalizeSerialNumber(e1.onlineIdentifier) == NormalizeSerialNumber(e2.onlineIdentifier)
    requires e1.allSerialNumbers == e2.allSerialNumbers
    ensures ISSNList(pattern, e1) == ISSNList(pattern, e2)
  {
    SortedUnique(ISSNList(pattern, e1), ISSNList(pattern, e2));
  }

  /** Normalising the identifier columns beforehand leaves the list unchanged. */
  lemma ISSNListNormalized(pattern: SerialPattern, e: Entry)
    ensures ISSNList(pattern, e) == ISSNList(pattern, e.(printIdentifier := NormalizeSerialNumber(e.printIdentifier),
                                                         onlineIdentifier := NormalizeSerialNumber(e.onlineIdentifier)))
  {
    NormalizeIdempotent(e.printIdentifier);
    NormalizeIdempotent(e.onlineIdentifier);
    ISSNListByNormalForm(pattern, e, e.(printIdentifier := NormalizeSerialNumber(e.printIdentifier),
                                        onlineIdentifier := NormalizeSerialNumber(e.onlineIdentifier)));
  }

  /** The list holds no identifier twice. */
  lemma ISSNListDistinct(pattern: SerialPattern, e: Entry)
    ensures var r := ISSNList(pattern, e);
            forall i, j :: 0 <= i < j < |r| ==> r[i] != r[j]
  {
    SortedDistinct(ISSNList(pattern, e));
  }

  /**
   * Every listed identifier is ISSN-shaped: the print and online identifiers
   * enter only when they match, and the matches found in all_issns match.
   */
  lemma ISSNListMatches(pattern: SerialPattern, e: Entry)
    requires ReportsMatches(pattern)
    ensures forall x :: x in ISSNList(pattern, e) ==> pattern.matches(x)
  {
  }
}

=== FILE: layouts.dfy ===
/**
 * Date strings of varying completeness: the ordered table of layouts tried
 * one after the other, and the first-match parse built on it
 * (licensing/entry.go:43-73, 282-307).
 */
module Layouts {
  import opened Wrappers
  import opened Dates
  import opened CoverageErrors

  /** A layout in Go's reference-time notation and the granularity it yields. */
  datatype DateFormat = DateFormat(layout: string, granularity: Granularity)

  /** The candidate layouts, in the order they are tried. */
  const DatePatterns: seq<DateFormat> := [
    DateFormat("2006", Year),
    DateFormat("2006-01-02", Day),
    DateFormat("2006-", Year),
    DateFormat("2006-01-2", Day),
    DateFormat("2006-01", Month),
    DateFormat("2006-1-02", Day),
    DateFormat("2006-1-2", Day),
    DateFormat("2006-1", Month),
    DateFormat("2006-Jan-02", Day),
    DateFormat("2006-Jan-2", Day),
    DateFormat("2006-Jan", Month),
    DateFormat("2006-January-02", Day),
    DateFormat("2006-January-2", Day),
    DateFormat("2006-January", Month),
    DateFormat("2006-x-x", Year),
    DateFormat("2006-x-xx", Year),
    DateFormat("2006-x", Year),
    DateFormat("2006-xx-x", Year),
    DateFormat("2006-xx-xx", Year),
    DateFormat("2006-xx", Year),
    DateFormat("20060102", Day),
    DateFormat("200601", Month)
  ]

  /**
   * Go's `time.Parse(layout, value)`: the instant a value denotes under a
   * layout, or None when the value does not fit the layout. The layout engine
   * itself is not modelled; every operation takes the parser as a parameter.
   */
  type Parser = (string, string) -> Option<Time>

  /** No layout of the table accepts the empty string (each starts with a 4-digit year). */
  predicate RejectsEmpty(parse: Parser) {
    forall i :: 0 <= i < |DatePatterns| ==> parse(DatePatterns[i].layout, "").None?
  }

  /** A successful parse: the instant and the granularity of its layout. */
  datatype Dated = Dated(time: Time, granularity: Granularity)

  /** No two entries of the table share a layout string. */
  lemma LayoutsDistinct()
    ensures forall i, j :: 0 <= i < j < |DatePatterns| ==> DatePatterns[i].layout != DatePatterns[j].layout
  {
  }

  /**
   * The granularity listed for the first entry of `formats`, from position
   * `from` on, with the given layout; DAY when there is none (getGranularity).
   */
  function LookupGranularity(formats: seq<DateFormat>, layout: string, from: nat): (g: Granularity)
    requires from <= |formats|
    ensures (forall k :: from <= k < |formats| ==> formats[k].layout != layout) ==> g == Day
    ensures forall k :: from <= k < |formats| && formats[k].layout == layout &&
                        (forall j :: from <= j < k ==> formats[j].layout != layout) ==>
                        g == formats[k].granularity
    decreases |formats| - from
  {
    if from == |formats| then Day
    else if formats[from].layout == layout then formats[from].granularity
    else LookupGranularity(formats, layout, from + 1)
  }

  /**
   * getGranularity: the granularity the table lists for the layout, DAY for
   * a layout not in the table.
   */
  function GetGranularity(layout: string): (g: Granularity)
    ensures (forall k :: 0 <= k < |DatePatterns| ==> DatePatterns[k].layout != layout) ==> g == Day
    ensures forall k :: 0 <= k < |DatePatterns| && DatePatterns[k].layout == layout ==> g == DatePatterns[k].granularity
  {
    LayoutsDistinct();
    LookupGranularity(DatePatterns, layout, 0)
  }

  /** getGranularity gives back each table entry's own granularity. */
  lemma GetGranularityOwn(i: nat)
    requires i < |DatePatterns|
    ensures GetGranularity(DatePatterns[i].layout) == DatePatterns[i].granularity
  {
    LayoutsDistinct();
  }

  /**
   * The position of the first layout in `formats` that accepts `s`, None
   * when every layout rejects it.
   */
  function FirstParsing(parse: Parser, formats: seq<DateFormat>, s: string): (r: Option<nat>)
    ensures r.Some? ==> r.value < |formats| && parse(formats[r.value].layout, s).Some?
    ensures r.Some? ==> forall j :: 0 <= j < r.value ==> parse(formats[j].layout, s).None?
    ensures r.None? <==> forall j :: 0 <= j < |formats| ==> parse(formats[j].layout, s).None?
  {
    if formats == [] then None
    else if parse(formats[0].layout, s).Some? then Some(0)
    else
      match FirstParsing(parse, formats[1..], s)
      case None =>
        assert forall j :: 1 <= j < |formats| ==> formats[j] == formats[1..][j - 1];
        None
      case Some(k) =>
        assert forall j :: 1 <= j <= k + 1 ==> formats[j] == formats[1..][j - 1];
        Some(k + 1)
  }

  /**
   * parseWithGranularity: the empty string is an invalid date; otherwise the
   * first layout of the table that accepts the string decides both the
   * instant and the granularity; when none does, the date is invalid.
   */
  function ParseWithGranularity(parse: Parser, s: string): (r: Result<Dated, CoverageError>)
    ensures s == "" ==> r == Failure(InvalidDate)
    ensures r.Failure? ==> r.error == InvalidDate
    ensures r.Success? <==>
              s != "" && exists i :: 0 <= i < |DatePatterns| && parse(DatePatterns[i].layout, s).Some?
    ensures r.Success? ==>
              exists i :: 0 <= i < |DatePatterns|
                && (forall j :: 0 <= j < i ==> parse(DatePatterns[j].layout, s).None?)
                && parse(DatePatterns[i].layout, s) == Some(r.value.time)
                && r.value.granularity == DatePatterns[i].granularity
  {
    if s == "" then Failure(InvalidDate)
    else
      match FirstParsing(parse, DatePatterns, s)
      case None => Failure(InvalidDate)
      case Some(i) =>
        GetGranularityOwn(i);
        Success(Dated(parse(DatePatterns[i].layout, s).value, GetGranularity(DatePatterns[i].layout)))
  }

  /**
   * Conversely, a non-empty string that the i-th layout accepts and no
   * earlier one does parses to that layout's instant and granularity.
   */
  lemma ParseFirstMatch(parse: Parser, s: string, i: nat, t: Time)
    requires s != "" && i < |DatePatterns|
    requires forall j :: 0 <= j < i ==> parse(DatePatterns[j].layout, s).None?
    requires parse(DatePatterns[i].layout, s) == Some(t)
    ensures ParseWithGranularity(parse, s) == Success(Dated(t, DatePatterns[i].granularity))
  {
    var r := FirstParsing(parse, DatePatterns, s);
    assert r.Some?;
    assert parse(DatePatterns[r.value].layout, s).Some? && parse(DatePatterns[i].layout, s).Some?;
    assert r.value == i;
    GetGranularityOwn(i);
  }

  /**
   * The boundary-date resolution of begin() and end(): the instant given by
   * the first layout that accepts `raw`, or `fallback` when none does.
   */
  function ResolveOr(parse: Parser, raw: string, fallback: Time): (t: Time)
    ensures (forall j :: 0 <= j < |DatePatterns| ==> parse(DatePatterns[j].layout, raw).None?) ==> t == fallback
    ensures (exists i :: 0 <= i < |DatePatterns| && parse(DatePatterns[i].layout, raw).Some?) ==>
              exists i :: 0 <= i < |DatePatterns|
                && (forall j :: 0 <= j < i ==> parse(DatePatterns[j].layout, raw).None?)
                && parse(DatePatterns[i].layout, raw) == Some(t)
  {
    match FirstParsing(parse, DatePatterns, raw)
    case None => fallback
    case Some(i) => parse(DatePatterns[i].layout, raw).value
  }

  /**
   * The boundary resolution and the query parse agree: a non-empty boundary
   * string resolves to the instant that parseWithGranularity gives for the
   * same string, and to the fallback exactly when that parse fails.
   */
  lemma ResolveAgreesWithParse(parse: Parser, raw: string, fallback: Time)
    requires raw != ""
    ensures ParseWithGranularity(parse, raw).Success? ==>
              ResolveOr(parse, raw, fallback) == ParseWithGranularity(parse, raw).value.time
    ensures ParseWithGranularity(parse, raw).Failure? ==> ResolveOr(parse, raw, fallback) == fallback
  {
  }

  /** A string the i-th layout reads first resolves to that layout's instant. */
  lemma ResolveFirstMatch(parse: Parser, s: string, i: nat, t: Time, fallback: Time)
    requires i < |DatePatterns|
    requires forall j :: 0 <= j < i ==> parse(DatePatterns[j].layout, s).None?
    requires parse(DatePatterns[i].layout, s) == Some(t)
    ensures ResolveOr(parse, s, fallback) == t
  {
    var r := FirstParsing(parse, DatePatterns, s);
    assert r.Some?;
    assert parse(DatePatterns[r.value].layout, s).Some? && parse(DatePatterns[i].layout, s).Some?;
    assert r.value == i;
  }

  /** With a parser that rejects "", an empty boundary always takes the fallback. */
  lemma ResolveEmpty(parse: Parser, fallback: Time)
    requires RejectsEmpty(parse)
    ensures ResolveOr(parse, "", fallback) == fallback
  {
  }
}

=== FILE: serials.dfy ===
/**
 * Serial-number normalisation (licensing/entry.go:267-275): Go's
 * strings.TrimSpace and strings.ToUpper followed by the hyphen insertion
 * that turns eight bare characters into the `NNNN-NNNN` form.
 */
module Serials {

  /**
   * The code points with the Unicode White_Space property, as inclusive
   * ranges: the set Go's unicode.IsSpace accepts.
   */
  const SpaceRanges: seq<(int, int)> := [
    (0x09, 0x0D), (0x20, 0x20), (0x85, 0x85), (0xA0, 0xA0), (0x1680, 0x1680),
    (0x2000, 0x200A), (0x2028, 0x2029), (0x202F, 0x202F), (0x205F, 0x205F),
    (0x3000, 0x3000)]

  predicate InRanges(n: int, ranges: seq<(int, int)>) {
    ranges != [] && (ranges[0].0 <= n <= ranges[0].1 || InRanges(n, ranges[1..]))
  }

  /** Go's unicode.IsSpace. */
  predicate IsSpace(c: char) {
    InRanges(c as int, SpaceRanges)
  }

  /**
   * Go's unicode.IsSpace decides the Latin-1 range by a fixed list: tab,
   * line feed, vertical tab, form feed, carriage return, space, NEL and
   * no-break space. The range table agrees with that list.
   */
  lemma Latin1Space(c: char)
    requires c as int < 0x100
    ensures IsSpace(c) <==> c as int in {0x09, 0x0A, 0x0B, 0x0C, 0x0D, 0x20, 0x85, 0xA0}
  {
    var n := c as int;
    var rs := SpaceRanges;
    assert rs[1..][1..] == rs[2..] && rs[2..][1..] == rs[3..] && rs[3..][1..] == rs[4..];
    OutsideRanges(n, rs[4..]);
    assert InRanges(n, rs) <==> 0x09 <= n <= 0x0D || InRanges(n, rs[1..]);
    assert InRanges(n, rs[1..]) <==> n == 0x20 || InRanges(n, rs[2..]);
    assert InRanges(n, rs[2..]) <==> n == 0x85 || InRanges(n, rs[3..]);
    assert InRanges(n, rs[3..]) <==> n == 0xA0 || InRanges(n, rs[4..]);
  }

  /** A code point that lies in no range of a table is not in the table. */
  lemma {:induction false} OutsideRanges(n: int, ranges: seq<(int, int)>)
    requires forall k :: 0 <= k < |ranges| ==> ranges[k].1 < n || n < ranges[k].0
    ensures !InRanges(n, ranges)
  {
    if ranges != [] {
      assert forall k :: 0 <= k < |ranges[1..]| ==> ranges[1..][k] == ranges[k + 1];
      OutsideRanges(n, ranges[1..]);
    }
  }

  /** Neither the first nor the last character is white space. */
  predicate Trimmed(s: string) {
    s == [] || (!IsSpace(s[0]) && !IsSpace(s[|s| - 1]))
  }

  /** The number of white-space characters at the start of `s`. */
  function TrimStart(s: string): (i: nat)
    ensures i <= |s|
    ensures forall k :: 0 <= k < i ==> IsSpace(s[k])
    ensures i < |s| ==> !IsSpace(s[i])
  {
    if s != [] && IsSpace(s[0]) then 1 + TrimStart(s[1..]) else 0
  }

  /** The length of `s` without the white-space characters at its end. */
  function TrimEnd(s: string): (j: nat)
    ensures j <= |s|
    ensures forall k :: j <= k < |s| ==> IsSpace(s[k])
    ensures 0 < j ==> !IsSpace(s[j - 1])
  {
    if s != [] && IsSpace(s[|s| - 1]) then TrimEnd(s[..|s| - 1]) else |s|
  }

  /**
   * strings.TrimSpace: the infix of `s` left after removing white space at
   * both ends.
   */
  function TrimSpace(s: string): (r: string)
    ensures Trimmed(r)
    ensures TrimStart(s) + |r| <= |s| && r == s[TrimStart(s)..TrimStart(s) + |r|]
    ensures forall k :: TrimStart(s) + |r| <= k < |s| ==> IsSpace(s[k])
  {
    var i := TrimStart(s);
    var j := TrimEnd(s[i..]);
    assert j > 0 ==> s[i..][0] == s[i];
    s[i..][..j]
  }

  /** A string that is already trimmed is left as it is. */
  lemma TrimSpaceTrimmed(s: string)
    requires Trimmed(s)
    ensures TrimSpace(s) == s
  {
  }

  /** The upper-case form of an ASCII letter; every other character is kept. */
  function UpperChar(c: char): (u: char)
    ensures IsSpace(u) <==> IsSpace(c)
    ensures !('a' <= u <= 'z')
    ensures !('a' <= c <= 'z') ==> u == c
  {
    if 'a' <= c <= 'z' then
      var u := ((c as int) - 32) as char;
      OutsideRanges(c as int, SpaceRanges);
      OutsideRanges(u as int, SpaceRanges);
      u
    else c
  }

  /** No ASCII lower-case letter remains. */
  predicate IsUpper(s: string) {
    forall i :: 0 <= i < |s| ==> !('a' <= s[i] <= 'z')
  }

  /** strings.ToUpper, for the ASCII letters. */
  function ToUpper(s: string): (r: string)
    ensures |r| == |s|
    ensures forall i :: 0 <= i < |s| ==> r[i] == UpperChar(s[i])
    ensures IsUpper(r)
  {
    if s == [] then [] else [UpperChar(s[0])] + ToUpper(s[1..])
  }

  /**
   * NormalizeSerialNumber: trim, upper-case, and when exactly eight
   * characters remain put a hyphen between the fourth and the fifth; the
   * characters themselves are not checked to be digits.
   */
  function NormalizeSerialNumber(s: string): (r: string)
    ensures Trimmed(r) && IsUpper(r)
    ensures |TrimSpace(s)| == 8 ==> |r| == 9 && r[4] == '-' && r[..4] + r[5..] == ToUpper(TrimSpace(s))
    ensures |TrimSpace(s)| != 8 ==> r == ToUpper(TrimSpace(s))
  {
    var t := TrimSpace(s);
    var u := ToUpper(t);
    UpperTrimmed(t);
    if |u| == 8 then
      Hyphenate(u);
      u[..4] + "-" + u[4..]
    else u
  }

  /** Upper-casing keeps a trimmed string trimmed. */
  lemma UpperTrimmed(t: string)
    requires Trimmed(t)
    ensures Trimmed(ToUpper(t))
  {
    var u := ToUpper(t);
    if u != [] {
      assert u[0] == UpperChar(t[0]) && u[|u| - 1] == UpperChar(t[|t| - 1]);
    }
  }

  /** Putting a hyphen after the fourth of eight characters. */
  lemma Hyphenate(u: string)
    requires |u| == 8 && Trimmed(u) && IsUpper(u)
    ensures var r := u[..4] + "-" + u[4..];
            |r| == 9 && r[4] == '-' && r[..4] + r[5..] == u && Trimmed(r) && IsUpper(r)
  {
    var r := u[..4] + "-" + u[4..];
    assert forall i :: 0 <= i < 9 ==> r[i] == (if i < 4 then u[i] else if i == 4 then '-' else u[i - 1]);
    assert r[..4] + r[5..] == u;
  }

  /** Normalising a normalised serial number changes nothing. */
  lemma NormalizeIdempotent(s: string)
    ensures NormalizeSerialNumber(NormalizeSerialNumber(s)) == NormalizeSerialNumber(s)
  {
    var r := NormalizeSerialNumber(s);
    TrimSpaceTrimmed(r);
    assert ToUpper(r) == r;
  }

  /** Eight bare characters come out upper-cased with a hyphen after the fourth. */
  lemma NormalizeEightCharacters(s: string)
    requires |s| == 8 && Trimmed(s)
    ensures NormalizeSerialNumber(s) == ToUpper(s[..4]) + "-" + ToUpper(s[4..])
  {
    TrimSpaceTrimmed(s);
    var u := ToUpper(s);
    var a, b := ToUpper(s[..4]), ToUpper(s[4..]);
    assert u[..4] == a by {
      forall i | 0 <= i < 4 ensures u[i] == a[i] {
        assert s[..4][i] == s[i];
      }
    }
    assert u[4..] == b by {
      forall i | 0 <= i < 4 ensures u[4 + i] == b[i] {
        assert s[4..][i] == s[4 + i];
      }
    }
  }
}

=== FILE: sorting.dfy ===
/**
 * Go's string ordering and the sorted, duplicate-free listing a string set
 * hands out (container.StringSet.SortedValues, used by licensing/entry.go:143).
 * Go compares strings byte by byte in UTF-8, which is the order of the code
 * points; here strings are compared character by character.
 */
module Sorting {

  /** Strict lexicographic order on strings. */
  predicate Less(a: string, b: string)
    decreases |a|
  {
    if a == [] then b != []
    else if b == [] then false
    else if a[0] != b[0] then a[0] < b[0]
    else Less(a[1..], b[1..])
  }

  lemma {:induction false} LessIrreflexive(a: string)
    ensures !Less(a, a)
    decreases |a|
  {
    if a != [] {
      LessIrreflexive(a[1..]);
    }
  }

  lemma {:induction false} LessTransitive(a: string, b: string, c: string)
    requires Less(a, b) && Less(b, c)
    ensures Less(a, c)
    decreases |a|
  {
    if a != [] && b != [] && c != [] && a[0] == b[0] && b[0] == c[0] {
      LessTransitive(a[1..], b[1..], c[1..]);
    }
  }

  lemma {:induction false} LessTotal(a: string, b: string)
    requires a != b
    ensures Less(a, b) || Less(b, a)
    decreases |a|
  {
    if a != [] && b != [] && a[0] == b[0] {
      assert a == [a[0]] + a[1..] && b == [b[0]] + b[1..];
      LessTotal(a[1..], b[1..]);
    }
  }

  lemma {:induction false} LessAsymmetric(a: string, b: string)
    requires Less(a, b)
    ensures !Less(b, a)
    decreases |a|
  {
    if a != [] && b != [] && a[0] == b[0] {
      LessAsymmetric(a[1..], b[1..]);
    }
  }

  /** Ascending without repetitions. */
  predicate StrictlySorted(xs: seq<string>) {
    forall i, j :: 0 <= i < j < |xs| ==> Less(xs[i], xs[j])
  }

  /** Adds `x` to a strictly sorted list at its place, unless it is already there. */
  function Insert(xs: seq<string>, x: string): (r: seq<string>)
    requires StrictlySorted(xs)
    ensures StrictlySorted(r)
    ensures forall y :: y in r <==> y in xs || y == x
  {
    if xs == [] then [x]
    else if x == xs[0] then xs
    else if Less(x, xs[0]) then
      assert forall j :: 0 < j < |xs| ==> Less(x, xs[j]) by {
        forall j | 0 < j < |xs| ensures Less(x, xs[j]) {
          LessTransitive(x, xs[0], xs[j]);
        }
      }
      [x] + xs
    else
      var tail := Insert(xs[1..], x);
      assert Less(xs[0], x) by {
        LessTotal(x, xs[0]);
      }
      assert forall y :: y in tail ==> Less(xs[0], y) by {
        forall y | y in tail ensures Less(xs[0], y) {
          if y != x {
            var j :| 0 <= j < |xs[1..]| && xs[1..][j] == y;
            assert xs[j + 1] == y;
          }
        }
      }
      [xs[0]] + tail
  }

  /** The distinct strings of `xs`, sorted ascending. */
  function SortedValues(xs: seq<string>): (r: seq<string>)
    ensures StrictlySorted(r)
    ensures forall y :: y in r <==> y in xs
  {
    if xs == [] then [] else Insert(SortedValues(xs[..|xs| - 1]), xs[|xs| - 1])
  }

  /** A strictly sorted list holds no string twice. */
  lemma SortedDistinct(xs: seq<string>)
    requires StrictlySorted(xs)
    ensures forall i, j :: 0 <= i < j < |xs| ==> xs[i] != xs[j]
  {
    forall i, j | 0 <= i < j < |xs| ensures xs[i] != xs[j] {
      LessAsymmetric(xs[i], xs[j]);
    }
  }

  /** The head of a strictly sorted list is below every other member. */
  lemma HeadIsLeast(xs: seq<string>, y: string)
    requires StrictlySorted(xs) && y in xs
    ensures y == xs[0] || Less(xs[0], y)
  {
    var j :| 0 <= j < |xs| && xs[j] == y;
  }

  lemma HeadIsMember(xs: seq<string>)
    requires xs != []
    ensures xs[0] in xs
  {
  }

  /** Two strictly sorted lists with the same members are the same list. */
  lemma {:induction false} SortedUnique(xs: seq<string>, ys: seq<string>)
    requires StrictlySorted(xs) && StrictlySorted(ys)
    requires forall y :: y in xs <==> y in ys
    ensures xs == ys
    decreases |xs|
  {
    if xs != [] {
      assert ys != [] by {
        assert xs[0] in ys;
      }
      HeadIsLeast(xs, ys[0]);
      HeadIsLeast(ys, xs[0]);
      if xs[0] != ys[0] {
        LessAsymmetric(xs[0], ys[0]);
      }
      forall y | y in xs[1..] ensures y in ys[1..] {
        LessIrreflexive(y);
        assert y in ys;
      }
      forall y | y in ys[1..] ensures y in xs[1..] {
        LessIrreflexive(y);
        assert y in xs;
      }
      SortedUnique(xs[1..], ys[1..]);
      assert xs == [xs[0]] + xs[1..] && ys == [ys[0]] + ys[1..];
    } else if ys != [] {
      HeadIsMember(ys);
      assert false;
    }
  }
}

=== FILE: strconv.dfy ===
/**
 * The decimal conversions of Go's strconv and fmt packages that the core
 * relies on, for Go's 64-bit `int`: `Atoi`, `ParseInt(m, 10, 32)` on a run of
 * digits, and `%d` formatting.
 */
module Strconv {
  import opened Wrappers

  const MinInt64: int := -0x8000_0000_0000_0000
  const MaxInt64: int := 0x7FFF_FFFF_FFFF_FFFF
  const MaxInt32: int := 0x7FFF_FFFF

  predicate InInt64(v: int) {
    MinInt64 <= v <= MaxInt64
  }

  predicate IsDigit(c: char) {
    '0' <= c <= '9'
  }

  predicate AllDigits(s: string) {
    forall i :: 0 <= i < |s| ==> IsDigit(s[i])
  }

  function DigitValue(c: char): (d: nat)
    requires IsDigit(c)
    ensures d < 10
  {
    (c as int) - ('0' as int)
  }

  function DigitChar(d: nat): (c: char)
    requires d < 10
    ensures IsDigit(c) && DigitValue(c) == d
  {
    (('0' as int) + d) as char
  }

  /** The value of a string of decimal digits, most significant first. */
  function DigitsValue(s: string): nat
    requires AllDigits(s)
  {
    if s == [] then 0 else DigitsValue(s[..|s| - 1]) * 10 + DigitValue(s[|s| - 1])
  }

  /** The body of a decimal literal once an optional leading sign is removed. */
  function Unsigned(s: string): (body: string)
    ensures |s| > 0 && (s[0] == '-' || s[0] == '+') ==> body == s[1..]
    ensures !(|s| > 0 && (s[0] == '-' || s[0] == '+')) ==> body == s
  {
    if |s| > 0 && (s[0] == '-' || s[0] == '+') then s[1..] else s
  }

  /** A decimal literal as Atoi reads it: an optional sign, then digits. */
  predicate IsDecimal(s: string) {
    |Unsigned(s)| > 0 && AllDigits(Unsigned(s))
  }

  /** The value a decimal literal denotes, sign included. */
  function SignedValue(s: string): int
    requires IsDecimal(s)
  {
    if s[0] == '-' then -(DigitsValue(Unsigned(s)) as int) else DigitsValue(Unsigned(s))
  }

  /**
   * strconv.Atoi: an optional `+` or `-`, then one or more ASCII digits, whose
   * value must fit a 64-bit int; anything else is an error (None).
   */
  function Atoi(s: string): (r: Option<int>)
    ensures r.Some? <==> IsDecimal(s) && InInt64(SignedValue(s))
    ensures r.Some? ==> r.value == SignedValue(s)
    ensures r.Some? ==> s != ""
  {
    if !IsDecimal(s) then None
    else if InInt64(SignedValue(s)) then Some(SignedValue(s))
    else None
  }

  /** The digits of a natural number without leading zeros. */
  function FormatNat(n: nat): (s: string)
    ensures |s| > 0 && AllDigits(s)
    ensures s[0] == '0' ==> n == 0 && s == "0"
    decreases n
  {
    if n < 10 then [DigitChar(n)] else FormatNat(n / 10) + [DigitChar(n % 10)]
  }

  /** `fmt.Sprintf("%d", n)`. */
  function FormatInt(n: int): (s: string)
    ensures |s| > 0
    ensures n < 0 <==> s[0] == '-'
    ensures n >= 0 ==> AllDigits(s)
    ensures n >= 0 && s[0] == '0' ==> n == 0 && s == "0"
    ensures n < 0 ==> |s| > 1 && AllDigits(s[1..]) && s[1] != '0'
  {
    if n < 0 then "-" + FormatNat(-n) else FormatNat(n)
  }

  /** Reading back the digits of a natural number gives the number. */
  lemma {:induction false} DigitsOfFormatNat(n: nat)
    ensures DigitsValue(FormatNat(n)) == n
    decreases n
  {
    var s := FormatNat(n);
    if n >= 10 {
      DigitsOfFormatNat(n / 10);
      assert s[..|s| - 1] == FormatNat(n / 10);
    }
  }

  /** Atoi inverts `%d` formatting on every 64-bit integer. */
  lemma AtoiFormatInt(n: int)
    requires InInt64(n)
    ensures Atoi(FormatInt(n)) == Some(n)
  {
    var s := FormatInt(n);
    if n < 0 {
      assert Unsigned(s) == FormatNat(-n);
      DigitsOfFormatNat(-n);
    } else {
      assert Unsigned(s) == FormatNat(n);
      DigitsOfFormatNat(n);
    }
  }

  /** The index of the first ASCII digit of `s`, or |s| when there is none. */
  function FirstDigitIndex(s: string): (i: nat)
    ensures i <= |s|
    ensures forall j :: 0 <= j < i ==> !IsDigit(s[j])
    ensures i < |s| ==> IsDigit(s[i])
  {
    if s == [] then 0 else if IsDigit(s[0]) then 0 else 1 + FirstDigitIndex(s[1..])
  }

  /** The longest prefix of `s` made only of ASCII digits. */
  function LeadingDigits(s: string): (m: string)
    ensures m <= s && AllDigits(m)
    ensures |m| < |s| ==> !IsDigit(s[|m|])
  {
    if s != [] && IsDigit(s[0]) then [s[0]] + LeadingDigits(s[1..]) else []
  }

  /**
   * What the regular expression `[0-9]+` finds first: the leftmost run of
   * digits, taken as long as it goes; "" when `s` holds no digit.
   */
  function FirstDigitRun(s: string): (m: string)
    ensures AllDigits(m)
    ensures m == [] <==> forall j :: 0 <= j < |s| ==> !IsDigit(s[j])
    ensures m == LeadingDigits(s[FirstDigitIndex(s)..])
  {
    LeadingDigits(s[FirstDigitIndex(s)..])
  }

  /**
   * `strconv.ParseInt(m, 10, 32)` on a non-empty run of digits, keeping the
   * value Go returns alongside a range error: the largest 32-bit int.
   */
  function ParseInt32Digits(m: string): (v: int)
    requires AllDigits(m)
    ensures 0 <= v <= MaxInt32
    ensures DigitsValue(m) <= MaxInt32 ==> v == DigitsValue(m)
    ensures DigitsValue(m) > MaxInt32 ==> v == MaxInt32
  {
    var d := DigitsValue(m);
    if d <= MaxInt32 then d else MaxInt32
  }
}

=== FILE: wrappers.dfy ===
/** Failure-carrying result types shared by the whole model. */
module Wrappers {

  /** A value that may be absent. */
  datatype Option<+T> = None | Some(value: T)

  /** Either a value or an error, the shape of Go's `(T, error)` returns. */
  datatype Result<+T, +E> = Success(value: T) | Failure(error: E)

  /** An error-or-nil return: `Pass` stands for Go's `nil` error. */
  datatype Outcome<+E> = Pass | Fail(error: E)
}

=== FILE: zero_query.dfy ===
/**
 * A query date that parses to the zero time (the year "0001") makes
 * containsDateTime return before begin() and end() run, and Covers then
 * reads whatever the cache holds for the boundary years. On a freshly loaded
 * entry the empty slots read as year 1, so the first- and last-bound volume
 * and issue checks apply; after any other query has filled the cache they
 * do not. The answer thus depends on the history of the entry, although the
 * cache exists only to save parsing time (licensing/entry.go:124).
 *
 * CoversResolved is Covers with the boundary dates resolved before the
 * volume and issue checks read them, and its answer depends on the raw
 * columns alone.
 */
module ZeroQuery {
  import opened Wrappers
  import opened Dates
  import opened CoverageErrors
  import opened Layouts
  import opened Strconv
  import opened Licensing
  import opened Coverage
  import opened CoverageExamples

  /**
   * The same query, "0001" with volume 3, against an entry whose coverage
   * starts in 1990 with volume 5: refused on a freshly loaded entry, accepted once an
   * earlier query has filled the cache.
   */
  lemma ZeroQueryDependsOnCache(parse: Parser, embargoOk: EmbargoCheck)
    requires parse("2006", "0001") == Some(Zero)
    requires parse("2006", "1990") == Some(Instant(1990, 1, 1, 0))
    requires parse("2006", "1995") == Some(Instant(1995, 1, 1, 0))
    requires parse("2006", "2000") == Some(Instant(2000, 1, 1, 0))
    requires embargoOk("", Zero) && embargoOk("", Instant(1995, 1, 1, 0))
    ensures var loaded := Row("1990", "5", "", "2000");
            var filled := Covers(parse, embargoOk, loaded, "1995", "", "").entry;
            && SameColumns(loaded, filled)
            && Covers(parse, embargoOk, loaded, "0001", "3", "").value == Fail(BeforeFirstVolume)
            && Covers(parse, embargoOk, filled, "0001", "3", "").value == Pass
  {
    var loaded := Row("1990", "5", "", "2000");
    QueryFillsCache(parse, embargoOk);
    ZeroQueryVolumeThree(parse, embargoOk, loaded);
    ZeroQueryVolumeThree(parse, embargoOk, loaded.(parsed := Parsed(Instant(1990, 1, 1, 0), Instant(2000, 1, 1, 0))));
  }

  /** The query "1995" fills both cache slots of the freshly loaded entry. */
  lemma QueryFillsCache(parse: Parser, embargoOk: EmbargoCheck)
    requires parse("2006", "1990") == Some(Instant(1990, 1, 1, 0))
    requires parse("2006", "1995") == Some(Instant(1995, 1, 1, 0))
    requires parse("2006", "2000") == Some(Instant(2000, 1, 1, 0))
    requires embargoOk("", Instant(1995, 1, 1, 0))
    ensures var loaded := Row("1990", "5", "", "2000");
            Covers(parse, embargoOk, loaded, "1995", "", "").entry
              == loaded.(parsed := Parsed(Instant(1990, 1, 1, 0), Instant(2000, 1, 1, 0)))
  {
    var loaded := Row("1990", "5", "", "2000");
    var first := Instant(1990, 1, 1, 0);
    var last := Instant(2000, 1, 1, 0);
    var q := Instant(1995, 1, 1, 0);
    ParseFirstMatch(parse, "1995", 0, q);
    ResolveFirstMatch(parse, "1990", 0, first, FirstSentinel);
    ResolveFirstMatch(parse, "2000", 0, last, LastSentinel);
    ContainsDateTimeWindow(parse, loaded, q, Year);
    var c := ContainsDateTime(parse, loaded, q, Year);
    assert c.value == Pass && c.entry.parsed == Parsed(first, last);
    SameColumnsDifferInCache(loaded, c.entry);
    CoversAfterWindow(parse, embargoOk, loaded, "1995", "", "", Dated(q, Year));
  }

  /**
   * A date that parses to the zero time passes the window without touching
   * the cache, so after the moving wall the volume and issue checks read
   * whatever the cache holds for the boundary years, year 1 in an empty slot.
   */
  lemma ZeroQueryOn(parse: Parser, embargoOk: EmbargoCheck, e: Entry, date: string, volume: string, issue: string)
    requires ParseWithGranularity(parse, date).Success? && IsZero(ParseWithGranularity(parse, date).value.time)
    ensures Covers(parse, embargoOk, e, date, volume, issue)
            == Step(e, if embargoOk(e.embargo, Zero) then VolumeIssueCheck(e, 1, volume, issue) else Fail(EmbargoViolation))
  {
  }

  /** The zero-time query of the example: volume 3 against a first volume of 5. */
  lemma ZeroQueryVolumeThree(parse: Parser, embargoOk: EmbargoCheck, e: Entry)
    requires parse("2006", "0001") == Some(Zero) && embargoOk("", Zero)
    requires e.firstVolume == "5" && e.embargo == ""
    ensures Covers(parse, embargoOk, e, "0001", "3", "").entry == e
    ensures Covers(parse, embargoOk, e, "0001", "3", "").value
            == (if e.parsed.firstIssueDate.year == 1 then Fail(BeforeFirstVolume) else LastBoundCheck(e, 1, "3", ""))
  {
    ParseFirstMatch(parse, "0001", 0, Zero);
    ZeroQueryOn(parse, embargoOk, e, "0001", "3", "");
    assert FindInt("5") == 5 && FindInt("3") == 3 by {
      FindIntFormatInt(5);
      FindIntFormatInt(3);
      assert FormatInt(5) == "5" && FormatInt(3) == "3";
    }
  }

  /**
   * Covers with the boundary dates resolved (begin() and end() called)
   * before the volume and issue checks read the boundary years.
   */
  function CoversResolved(parse: Parser, embargoOk: EmbargoCheck, e: Entry, date: string, volume: string, issue: string)
    : (r: Step<Outcome<CoverageError>>)
    ensures SameColumns(e, r.entry)
    ensures CacheConsistent(parse, e) ==> CacheConsistent(parse, r.entry)
    ensures ParseWithGranularity(parse, date).Failure? ==> r == Step(e, Fail(InvalidDate))
  {
    match ParseWithGranularity(parse, date)
    case Failure(err) => Step(e, Fail(err))
    case Success(d) =>
      var c := ContainsDateTime(parse, e, d.time, d.granularity);
      if c.value.Fail? then c
      else if !embargoOk(e.embargo, d.time) then Step(c.entry, Fail(EmbargoViolation))
      else
        var b := Begin(parse, c.entry);
        var n := End(parse, b.entry);
        Step(n.entry, VolumeIssueCheck(n.entry, d.time.year, volume, issue))
  }

  /** CoversResolved gives the reference answer for every date and every cache state. */
  lemma CoversResolvedMatchesReference(parse: Parser, embargoOk: EmbargoCheck, e: Entry, date: string, volume: string, issue: string)
    requires CacheConsistent(parse, e)
    ensures CoversResolved(parse, embargoOk, e, date, volume, issue).value == CoversReference(parse, embargoOk, e, date, volume, issue)
  {
    match ParseWithGranularity(parse, date)
    case Failure(_) =>
    case Success(d) =>
      var c := ContainsDateTime(parse, e, d.time, d.granularity);
      var n := End(parse, Begin(parse, c.entry).entry).entry;
      var p := Parsed(ResolvedBegin(parse, e), ResolvedEnd(parse, e));
      ContainsDateTimeWindow(parse, e, d.time, d.granularity);
      assert CoversReference(parse, embargoOk, e, date, volume, issue) ==
        if c.value.Fail? then c.value
        else if !embargoOk(e.embargo, d.time) then Fail(EmbargoViolation)
        else VolumeIssueCheck(e.(parsed := p), d.time.year, volume, issue);
      assert CoversResolved(parse, embargoOk, e, date, volume, issue).value ==
        if c.value.Fail? then c.value
        else if !embargoOk(e.embargo, d.time) then Fail(EmbargoViolation)
        else VolumeIssueCheck(n, d.time.year, volume, issue);
      if c.value == Pass {
        SameColumnsDifferInCache(e, n);
        assert n == e.(parsed := p);
      }
  }

  /**
   * So two entries with the same columns get the same answer, whatever
   * either one has cached.
   */
  lemma CoversResolvedIgnoresCache(parse: Parser, embargoOk: EmbargoCheck, e1: Entry, e2: Entry, date: string, volume: string, issue: string)
    requires CacheConsistent(parse, e1) && CacheConsistent(parse, e2) && SameColumns(e1, e2)
    ensures CoversResolved(parse, embargoOk, e1, date, volume, issue).value
         == CoversResolved(parse, embargoOk, e2, date, volume, issue).value
  {
    CoversResolvedMatchesReference(parse, embargoOk, e1, date, volume, issue);
    CoversResolvedMatchesReference(parse, embargoOk, e2, date, volume, issue);
    ReferenceIgnoresCache(parse, embargoOk, e1, e2, date, volume, issue);
  }

  /** On every date that does not parse to the zero time the two agree. */
  lemma CoversResolvedAgrees(parse: Parser, embargoOk: EmbargoCheck, e: Entry, date: string, volume: string, issue: string)
    requires CacheConsistent(parse, e)
    requires ParseWithGranularity(parse, date).Success? ==> !IsZero(ParseWithGranularity(parse, date).value.time)
    ensures CoversResolved(parse, embargoOk, e, date, volume, issue).value == Covers(parse, embargoOk, e, date, volume, issue).value
  {
    CoversResolvedMatchesReference(parse, embargoOk, e, date, volume, issue);
    CoversMatchesReference(parse, embargoOk, e, date, volume, issue);
  }
}
